=== FILE: README.md ===
# pyrus API client: a Dafny model of its request pipeline

This project models the core of the Python client for the Pyrus API
(`PyrusAPI` in `pyrus/client.py` and the request and response classes in
`pyrus/models/`). It covers three pieces of sequential logic:

- **The request executor.** This is `_perform_request_with_retry` together with
  `_auth`. It is a small state machine over a stored access token:
  - with no token, it authenticates first;
  - it calls the API;
  - on a 401 it authenticates once more and calls exactly once more;
  - when an authentication yields no token, it returns the authentication
    reply.

  `Client.AttemptAnswer` reads off the replies alone what a run with a token
  held must answer, and the executor is proved to fail exactly when that
  answer is an error, with the same error, and otherwise to agree with it on
  the number of requests and the outcome.

  Around it sit the pure decisions:
  - the HTTP-method dispatch of `_perform_request`;
  - the bearer headers, and the upload headers without `Content-Type`;
  - the 250 MiB upload limit;
  - the response-kind dispatch of `_get_response`;
  - URL building;
  - the public calls `auth`, `download_file`, `get_registry` and
    `get_task_list`.
- **The request-body constructors.** These are `FormRegisterRequest`,
  `TaskCommentRequest`, `CreateTaskRequest`, `AuthRequest`,
  `SyncCatalogRequest` and `CreateCatalogRequest`, with their shared helpers.
  Each is a pure function from an argument record to
  `Result<attributes, exception>`. An `Option` field is `None` exactly when
  the Python object lacks that attribute.
- **The response constructors.** These are `BaseResponse` and its subclasses.
  Each is a function from the reply's members, spread as keyword arguments,
  to a response record.

## How things are represented

- **Python values.** Python objects are `Values.Value`: None, bool, int, str,
  list, dict (an ordered member list), datetime, and entity objects.
  - `bool` counts as an `int`, as `isinstance` does in Python.
  - Truthiness is written out.
  - Raised exceptions are `Values.Error` values carried by `Result`.
- **The server.** The server is an oracle. A `Client.Session` holds the
  credentials, the current token (`Null` when none is held) and the replies
  the server will give, in order.
  - Sending a request consumes the next reply.
  - Running out of replies is a `ConnectionError` from the transport.
  - Every run of the executor returns the requests it sent. The checks on the
    number of calls are stated over these requests. A request without an
    `Authorization` header is an authentication request.
- **Code whose text is not part of this model.** `datetime.strftime`, `str()`
  of every value that is not `None`, a bool, an int or a str (lists, dicts,
  datetimes and entity objects), `CatalogItem.fromliststr` and the
  constructors of `models.entities` are parameters:
  - `Values.Runtime` holds the first three;
  - `Responses.Entities` holds the entity constructors.

  The same goes for the file size that `os.path.getsize` would report, and for
  the file name that the `Content-Disposition` header parses to. Both are
  fields of the inputs.

## Where the code and the documentation differ

The model follows the code where the two differ:

- **`TaskCommentRequest` (requests.py:295-300) never accepts a truthy
  `duration`.** The code tests `isinstance(due, int)`, not `duration`.
  - A truthy `due` must already be a datetime.
  - A falsy `due` of `0` or `False` raises ValueError; every other falsy
    `due` (`None`, `""`, `[]`, `{}`) raises TypeError.

  `CommentRequests.CommentDue` and `CommentRequests.NewTaskCommentRequest`
  state this as written: any truthy `duration` makes the constructor raise.
- **`CreateTaskRequest` does not make `due` and `due_date` exclusive.** Only
  `TaskCommentRequest` does, at requests.py:346-347. Both due dates are kept,
  and an int `duration` is kept with or without `due`.
- **`download_file` raises AttributeError whenever an authentication yields
  no token.** The executor then returns the decoded authentication reply, a
  dict, and `download_file` reads `.status_code` on it (client.py:3544). This
  happens after a failed first authentication, which `Client.DownloadFile`
  states directly. It also happens when a held token is answered with 401 and
  the re-authentication stores no token (client.py:3649-3653).
  `Client.DownloadFile` states that such a download fails, and
  `Client.DownloadAfterFailedReauth` states that the error is this
  AttributeError.
- **Participants are coerced with `int(person)`.** Only ValueError is caught,
  so a value `int()` rejects with TypeError raises (None, a list, an entity).
  A string that `int()` parses becomes an id, not an email.
- **`_post_request` and `_put_request` never assign `data` when there is no
  body.** They then raise UnboundLocalError. `Client.BuildRequest` states
  this.

## Model

| member | source | states |
|---|---|---|
| Decimal.IntToString | pyrus/models/requests.py:63 | `str()` of an int: non-empty and ending in a digit, with a leading minus exactly for negatives, and all digits otherwise |
| Decimal.ParseInt | pyrus/models/requests.py:258-262 | `int(s)` on a string: when it succeeds, the stripped string is an optional sign followed by digits in which single underscores may separate digits: it starts with a digit or a sign followed by a digit, holds only digits and underscores after that, has no two underscores in a row and ends in a digit; a negative result comes from a leading minus |
| Decimal.ParseIntOfIntToString | pyrus/models/requests.py:258-262 | round trip: `int(str(i)) == i` for every integer (no digit limit, see "## Left out") |
| Decimal.IntToStringInjective | pyrus/models/requests.py:62-71 | distinct integers render as distinct decimal strings |
| Values.Subscript | pyrus/client.py:3613 | `d[k]` succeeds exactly on a dict that holds `k`, giving its value; a dict without `k` raises KeyError(k) |
| Values.Contains | pyrus/models/requests.py:280-284 | `k in x`: key membership for a dict, element equality for a list; it raises for a value that is not iterable |
| Values.TruthyIsNonEmpty | pyrus/client.py:3641 | Python's truth value on a container: a list, str or dict is truthy exactly when a `for` loop over it visits something |
| Values.Display | pyrus/models/requests.py:63 | `'{}'.format(v)`: `None`, `True`/`False`, a str unchanged, an int in decimal, and `str()` of anything else |
| Values.DisplayIntReadsBack | pyrus/models/requests.py:63 | an int formatted with `'{}'.format` is read back by `int()` as the same int |
| Values.Iterate | pyrus/models/responses.py:84 | what a `for` loop visits: a list's elements; for a str, the one-character string of each character in order; for a dict, each member's key in order; anything else raises |
| RequestFields.ChannelArg | pyrus/models/requests.py:348-354 | `channel` is accepted exactly when it is one of the twelve channel names, and it is stored as a Channel entity of that type |
| RequestFields.DateArg | pyrus/models/requests.py:593-596 | accepted exactly for a datetime, rendered in the given format; otherwise TypeError('<name> must be a date') |
| RequestFields.CoercePerson | pyrus/models/requests.py:160-166 | the result is always a Person; a Person is kept, an int (or bool) becomes the id, anything else becomes the email |
| RequestFields.CoercePersonIdempotent | pyrus/models/requests.py:160-166 | coercing an already coerced value changes nothing |
| RequestFields.CoercePersonSeq | pyrus/models/requests.py:225-231 | coercion of a list keeps its length and coerces element by element |
| RequestFields.PersonListArg | pyrus/models/requests.py:221-231 | a subscriber list is accepted exactly when it is a list, with the same length, each element coerced; otherwise TypeError('<name> must be a list') |
| RequestFields.ApprovalStepSeq | pyrus/models/requests.py:177-188 | every approval step must be a list; the steps keep their number and each step keeps its length, persons coerced |
| RequestFields.ApprovalsArg | pyrus/models/requests.py:173-188 | approvals are accepted exactly for a list of lists, and keep their outer and inner lengths; the two TypeError messages are distinguished |
| RequestFields.CoerceParticipant | pyrus/models/requests.py:258-262 | `int(p)` decides: an int or a string it parses becomes the id (the value itself), another string the email; anything else raises TypeError |
| RequestFields.DecimalParticipantIsId | pyrus/models/requests.py:258-262 | the decimal rendering of any integer is taken as an id, never as an email (no digit limit, see "## Left out") |
| RequestFields.ParticipantSeq | pyrus/models/requests.py:257-262 | the participant loop succeeds exactly when every item is an int or a str; it keeps the length and coerces each item |
| RequestFields.ParticipantListArg | pyrus/models/requests.py:254-263 | a participant list is accepted exactly when it is a list that `int()` accepts item by item, length kept |
| RequestFields.CheckField | pyrus/models/requests.py:276-286 | a field update is accepted exactly when it is a FormField, or a container holding `id` or `name` and holding `value`; it is kept as given |
| RequestFields.CheckFieldSeq | pyrus/models/requests.py:274-286 | the field-update loop accepts exactly when every item is acceptable, and it keeps the list unchanged |
| RequestFields.FieldListArg | pyrus/models/requests.py:441-453 | `fields` of a list is accepted exactly when every item is acceptable, and is then stored unchanged; a non-iterable value raises |
| RequestFields.FieldDictsAccepted | pyrus/models/requests.py:447-452 | for a list of dicts: accepted exactly when each dict has `id` or `name` and has `value` |
| RequestFields.HeaderSeq | pyrus/models/requests.py:568-574 | header flattening keeps the length: a CatalogHeader becomes its name, a string stays, anything else raises |
| RequestFields.CatalogHeadersArg | pyrus/models/requests.py:563-575 | `_get_catalog_headers` accepts exactly a list of headers and strings, with the same length, mapped element by element; a non-list raises TypeError('catalog_headers must be a list of str') |
| RequestFields.CatalogItemSeq | pyrus/models/requests.py:583-589 | each catalog item either converts from a list of strings or is already a CatalogItem; otherwise the loop raises; the length is kept |
| RequestFields.CatalogItemsArg | pyrus/models/requests.py:578-590 | `_get_catalog_items` raises for a non-list, and otherwise keeps the length |
| Filters.FilterKey | pyrus/models/requests.py:63 | `'fld{}'.format(field_id)`: defined exactly when the filter has a `field_id` attribute; the name starts with "fld" and, for an int id, ends with the id in decimal |
| Filters.Join | pyrus/models/requests.py:71 | `",".join` succeeds exactly when every item is a string; no items join to "", a single string to itself |
| Filters.JoinSnoc | pyrus/models/requests.py:71 | joining one more string appends the separator and that string, so with the one-item case the joined text of every list of strings is fixed |
| Filters.FilterAttribute | pyrus/models/requests.py:62-71 | the attribute a filter sets, when any, is named `fld...` |
| Filters.FilterOnField | pyrus/models/requests.py:62-71 | a recognised operator on an integer field sets `fld<id>` to that operator's value, or raises exactly what computing the value raises |
| Filters.DistinctFieldsDistinctKeys | pyrus/models/requests.py:62-71 | filters on different integer field ids set different attributes |
| Filters.FilterEquals | pyrus/models/requests.py:62-63 | `equals` stores the values unchanged under `fld<id>` |
| Filters.FilterComparison | pyrus/models/requests.py:64-67 | `greater_than` stores "gt" and `less_than` stores "lt", each followed by the rendered value, under `fld<id>` |
| Filters.FilterRange | pyrus/models/requests.py:68-69 | `range` stores "gt<a>,lt<b>" from the first two bounds; later bounds are ignored |
| Filters.FilterRangeTooShort | pyrus/models/requests.py:68-69 | `range` with fewer than two bounds raises IndexError |
| Filters.FilterIsIn | pyrus/models/requests.py:70-71 | `is_in` on any list of strings stores their comma join under `fld<id>` |
| Filters.FilterIsInPair | pyrus/models/requests.py:70-71 | in particular two strings are stored as `x,y` |
| Filters.FilterIsInRejects | pyrus/models/requests.py:70-71 | `is_in` with a non-string value raises |
| Filters.FilterUnknownOperator | pyrus/models/requests.py:62-71 | any other operator sets nothing |
| Filters.FilterSeq | pyrus/models/requests.py:59-71 | the filter loop succeeds exactly when each item is a FormRegisterFilter whose attribute can be computed; it adds only `fld...` attributes |
| Filters.LaterFiltersKeep | pyrus/models/requests.py:59-71 | an attribute that no filter sets is unchanged by the loop |
| Filters.LastFilterWins | pyrus/models/requests.py:59-71 | a filter's attribute holds that filter's value unless a later filter sets the same attribute |
| Filters.FiltersArg | pyrus/models/requests.py:56-71 | `filters` is accepted exactly for a list the loop accepts, and it yields only `fld...` attributes |
| RegisterRequests.RegisterHeadBlocks | pyrus/models/requests.py:30-41 | `steps` must be a list of ints and `include_archived` a bool when given, each with its own TypeError message, checked in that order; given values are stored as they are |
| RegisterRequests.RegisterDateBlocks | pyrus/models/requests.py:43-54 | the six date bounds are accepted exactly when each given one is a datetime, and each is stored in the date-time format |
| RegisterRequests.RegisterTailBlocks | pyrus/models/requests.py:73-101 | accepted exactly when `field_ids` is a list of ints, `format` a str that is "json" or "csv", `delimiter` a str, `simple_format` a bool and `encoding` a str, each when given; checked in that order, the first failing block raises TypeError with its own message; given values are stored as they are |
| RegisterRequests.NewFormRegisterRequest | pyrus/models/requests.py:27-101 | accepted exactly when every block accepts; a stored format is "json" or "csv"; the filter attributes are exactly those of the filter loop, all named `fld...` |
| CommentRequests.CommentHead | pyrus/models/requests.py:147-172 | `approval_choice` is one of the four choices; `action` is "finished" or "reopened"; `reassign_to` is coerced to a Person; `attachments` must be a list |
| CommentRequests.CommentApprovals | pyrus/models/requests.py:173-220 | the three approval lists are accepted exactly when each is a list of lists, and are stored shape-preserved |
| CommentRequests.CommentPeople | pyrus/models/requests.py:221-273 | the three subscriber lists are person-coerced and the two participant lists are `int()`-coerced, with lengths kept |
| CommentRequests.CommentDue | pyrus/models/requests.py:274-300 | `due_date` and `due` must be datetimes; as written, any truthy `duration` raises, and the TypeError case is identified; no duration is ever stored |
| CommentRequests.CommentSchedule | pyrus/models/requests.py:301-324 | at most one of `scheduled_date`, `cancel_schedule` and `scheduled_datetime_utc` survives, with precedence utc > cancel > date |
| CommentRequests.CommentTail | pyrus/models/requests.py:325-358 | the list-id and step lists must be int lists; giving both `due` and `due_date` raises ValueError; `channel` is validated; `spent_minutes` must be an int |
| CommentRequests.NewTaskCommentRequest | pyrus/models/requests.py:139-358 | accepted exactly when every block accepts; a truthy duration always raises; both dues raise ValueError; at most one schedule attribute, utc > cancel > date |
| TaskRequests.TaskHeadBlocks | pyrus/models/requests.py:392-411 | `parent_task_id` and `duration` must be ints, and `due_date` and `due` datetimes; both dues and the duration are kept |
| TaskRequests.TaskScheduleBlocks | pyrus/models/requests.py:412-423 | at most one schedule attribute survives, and the UTC time wins over the date |
| TaskRequests.TaskFormBlocks | pyrus/models/requests.py:424-453 | `form_id` must be an int and `attachments` a list; `responsible` is coerced to a Person; `fields` are checked |
| TaskRequests.TaskPeopleBlocks | pyrus/models/requests.py:454-501 | approvals keep their shape, subscribers are coerced, participants are `int()`-coerced, `list_ids` must be ints and `fill_defaults` a bool |
| TaskRequests.NewCreateTaskRequest | pyrus/models/requests.py:387-501 | accepted exactly when every block accepts; `due` and `due_date` are not exclusive; schedule exclusivity with UTC first |
| Requests.NewAuthRequest | pyrus/models/requests.py:513-518 | each credential is an attribute exactly when it is truthy, holding the value given |
| Requests.CatalogBlocks | pyrus/models/requests.py:536-539 | headers and items are accepted exactly when each given one passes its helper; a non-list header value raises the header message |
| Requests.NewSyncCatalogRequest | pyrus/models/requests.py:531-539 | `apply` must be a bool when given; success exactly when the catalog blocks succeed too |
| Requests.NewCreateCatalogRequest | pyrus/models/requests.py:552-560 | `name` must be a str when given; success exactly when the catalog blocks succeed too |
| Responses.Splat | pyrus/models/responses.py:43 | `**v` succeeds exactly on a dict, giving its members; anything else raises TypeError("argument after ** must be a mapping") |
| Responses.MapItems | pyrus/models/responses.py:82-85 | the conversion loop succeeds exactly when every element converts; the result holds the conversion of each element, in order; a failure is the first failing element's exception |
| Responses.ListField | pyrus/models/responses.py:82-86 | a list field is absent exactly when its key is missing; otherwise it has one converted element per element of the value, in order |
| Responses.Copied | pyrus/models/responses.py:177-180 | an optional scalar is set exactly when its key is present, holding that key's value |
| Responses.NewBaseResponse | pyrus/models/responses.py:19-22 | keeps the whole map as `original_response`; `error_code` and `error` are the map's values, or None when absent |
| Responses.NewAuthResponse | pyrus/models/responses.py:37-43 | `success` is true exactly when `access_token` is present, and `access_token` is then its value |
| Responses.NewFormResponse | pyrus/models/responses.py:65-67 | the form entity is built from the whole map, and the base keeps it |
| Responses.NewFormsResponse | pyrus/models/responses.py:81-86 | `forms` is None exactly when the key is absent, and otherwise holds the conversion of each input element, in order; the base keeps the whole map |
| Responses.NewTaskResponse | pyrus/models/responses.py:100-103 | `task` is set exactly when the key is present, and is then the entity built from it, failing exactly when that fails; the base keeps the whole map and its error keys |
| Responses.NewContactsResponse | pyrus/models/responses.py:117-122 | `organizations` is None exactly when the key is absent, and otherwise holds the conversion of each input element, in order; the base keeps the whole map |
| Responses.NewCatalogResponse | pyrus/models/responses.py:136-139 | the catalog entity is built from the whole map |
| Responses.NewFormRegisterResponse | pyrus/models/responses.py:155-160 | `tasks` is None exactly when the key is absent, and otherwise holds a Task entity per input element, in order; `csv` stays unset; the base keeps the whole map |
| Responses.CsvRegisterResponse | pyrus/client.py:3709-3712 | the CSV result carries the text verbatim, no tasks, and an empty original map |
| Responses.NewUploadResponse | pyrus/models/responses.py:176-181 | `guid` and `md5_hash` are set exactly when their keys are present, holding their values |
| Responses.NewListsResponse | pyrus/models/responses.py:195-200 | `lists` is None exactly when the key is absent, and otherwise holds the conversion of each input element, in order; the base keeps the whole map |
| Responses.NewTaskListResponse | pyrus/models/responses.py:216-223 | `has_more` is copied when present; `tasks` is None exactly when absent, and otherwise holds a TaskHeader entity per input element, in order |
| Responses.NewDownloadResponse | pyrus/models/responses.py:239-242 | holds the given file name and bytes, with no error fields and an empty original map |
| Responses.NewSyncCatalogResponse | pyrus/models/responses.py:264-283 | `apply` is copied; `added`, `updated`, `deleted` and `catalog_headers` are each None exactly when absent, and otherwise hold the converted entities element by element, in order |
| Client.CreateUrl | pyrus/client.py:3621-3622 | every URL is the API root followed by the suffix |
| Client.CreateUrlInjective | pyrus/client.py:3621-3622 | different suffixes give different URLs |
| Client.IntText | pyrus/client.py:3522 | `'{}'.format` of an int or a bool is non-empty and never ends in 'y' |
| Client.TaskListPathFlag | pyrus/client.py:3522-3524 | the task-list path ends with `&include_archived=y` exactly when archived tasks were asked for |
| Client.EndsWithUrl | pyrus/client.py:3526 | prefixing the API root does not change how a path ends |
| Client.TaskListUrl | pyrus/client.py:3515-3526 | the three type checks with their messages, in order; the URL carries the archive flag exactly when `include_archived` is true |
| Client.DefaultHeaders | pyrus/client.py:3700-3706 | exactly the user agent, the bearer token and the JSON content type |
| Client.UploadHeaders | pyrus/client.py:3690-3692 | the default headers minus `Content-Type`, all others unchanged |
| Client.AuthHeaders | pyrus/client.py:3602-3605 | the authentication request carries no `Authorization` header |
| Client.Send | pyrus/client.py:3670-3672 | a request gets the next reply and consumes it; with none left the transport raises |
| Client.RouteOf | pyrus/client.py:3659-3668 | the method decides the request; a file path matters only to POST, and the file flag only to GET |
| Client.BuildRequest | pyrus/client.py:3670-3698 | every API request carries `Authorization: Bearer <token>`; uploads omit `Content-Type`; an upload over the limit raises before sending; a POST or PUT without a body raises UnboundLocalError |
| Client.UploadLimitBoundary | pyrus/client.py:3694-3696 | a file of exactly 250·1024·1024 bytes passes the check, and one byte more is refused |
| Client.PerformRequest | pyrus/client.py:3659-3668 | build errors surface before anything is sent; otherwise the built request is sent |
| Client.AuthHttpRequest | pyrus/client.py:3601-3611 | `_auth` POSTs to `/auth` with only the User-Agent and JSON Content-Type headers (no Authorization, so it is an authentication request) and an AuthRequest body holding each credential exactly when it is truthy |
| Client.Authenticate | pyrus/client.py:3600-3619 | on 200 the token becomes the body's `access_token` (KeyError when it is absent); any other status clears it; the decoded body is returned; a body that is not JSON raises |
| Client.GetResponse | pyrus/client.py:3708-3715 | a CSV register query keeps the text verbatim, a file request the raw reply, and everything else is JSON-decoded |
| Client.AttemptAnswer | pyrus/client.py:3646-3657 | reference answer read off the replies alone: a reply other than 401 answers at once; after a 401 the second reply is the re-authentication, whose body answers unless it stores a token, and the third reply answers the repeated call; every way the code raises is the error |
| Client.AnswerOfFirstReply | pyrus/client.py:3647-3648 | the reference answer agrees with the executor's own steps when the call cannot be made or its reply is not a 401 |
| Client.AnswerOfReauth | pyrus/client.py:3649-3653 | the reference answer agrees with the executor's steps after a 401 when the re-authentication raises or stores no token |
| Client.AnswerOfRepeat | pyrus/client.py:3655-3657 | the reference answer agrees with the executor's steps for the repeated call |
| Client.Attempt | pyrus/client.py:3646-3657 | it fails exactly when the reference answer does, with the same error, and otherwise sends as many requests and hands back the same outcome; the API is called with the held token, which stays stored without a 401; only a 401 triggers one authentication; the call is repeated exactly when that authentication returned 200 with a truthy token, and the repeat carries that token; a second 401 goes to response handling; at most three requests |
| Client.AfterUnauthorized | pyrus/client.py:3649-3657 | the 401 branch: at least two requests, and the same answer and promises as `Attempt` |
| Client.RetryTracesBounded | pyrus/client.py:3636-3657 | every request sequence the executor can produce (the set `Retry` ensures its runs fall in) holds at most two API calls and two authentications |
| Client.CountAlternating | pyrus/client.py:3636-3657 | in a run of at most four requests where no kind repeats back to back, each kind occurs at most twice |
| Client.AuthFirst | pyrus/client.py:3639-3644 | without a token, an authentication that raises is the whole result, one that yields no token is the whole answer and the API is never called; otherwise the run answers as the reference answer for the session after that authentication says, with one request more, the call carries that authentication's token, and the retry rule holds one reply later |
| Client.PrependAttempt | pyrus/client.py:3639-3644 | an attempt made with the first authentication's token, prefixed by that authentication, is a run that authenticated first |
| Client.PrependShape | pyrus/client.py:3639-3657 | the retry rule of an attempt carries over, shifted by one reply, to a run that authenticated first |
| Client.PrependAuthFlow | pyrus/client.py:3639-3644 | an attempt made with the first authentication's token, prefixed by that authentication, moves the token as the executor promises |
| Client.Retry | pyrus/client.py:3636-3657 | with a token held, it fails exactly when the reference answer does, with the same error, and otherwise sends as many requests and hands back the same outcome; without one, the same holds after a first authentication that stores a token, with one request more; one reply per request; the run ends with the last reply; credentials never change; a held token is used at once and stays stored without a 401; without one the call carries the token the first authentication obtained; the call is repeated exactly when its first reply was a 401, at most once, and only after a re-authentication that returned 200 with a truthy token, which the repeat leaves stored; otherwise that re-authentication's reply ends the run; a run ending at the API leaves stored the token its last request carried; a failed first authentication returns its body after a single request |
| Client.JsonReplyOutcome | pyrus/client.py:3715 | a JSON call the API answered ends with that reply decoded |
| Client.SignIn | pyrus/client.py:62-78 | truthy arguments replace the credentials; on 200 the response and the session hold the same token, otherwise the session holds none |
| Client.DownloadErrorCode | pyrus/client.py:3550-3556 | 401 gives authorization_error, 403 and 404 give access_denied_file, and only other statuses give ServerError |
| Client.DownloadFailure | pyrus/client.py:3551-3556 | the failure response carries exactly that error code and no error text |
| Client.DownloadCall | pyrus/client.py:3541-3543 | the download is a streamed GET of the attachment URL plus the id |
| Client.DownloadAnswerOf | pyrus/client.py:3544-3556 | a raw reply with 200 gives the file, any other status its error code; a decoded dict raises AttributeError |
| Client.DownloadFile | pyrus/client.py:3530-3556 | `file_id` must be an int; a failed first authentication ends in AttributeError; a 401 on a held token followed by a re-authentication that stores no token makes the download fail |
| Client.DownloadAfterFailedReauth | pyrus/client.py:3544 | after a 401 on a held token and a re-authentication that stores no token, the run ends at that authentication and `download_file` raises AttributeError on its decoded reply |
| Client.DownloadMapsLastReply | pyrus/client.py:3544-3556 | a download that returns was answered by the API, and maps that reply's status and bytes |
| Client.RegistryCall | pyrus/client.py:102-109 | POST with the query when one is given, GET otherwise, to `/forms/<id>/register` |
| Client.RegistryAnswerOf | pyrus/client.py:111-114 | a CSV query answered with text gives a response holding that text, and one that ended in the authentication body passes it through; any other query builds a FormRegisterResponse from the decoded map, failing exactly when that fails |
| Client.GetRegistry | pyrus/client.py:102-114 | a query that is not a FormRegisterRequest raises TypeError before any request |
| Client.CsvRegistryKeepsText | pyrus/client.py:3709-3712 | a CSV query the API answered returns its text verbatim, with `tasks` unset |
| Client.JsonRegistryDecodes | pyrus/client.py:111-114 | any other query the API answered is decoded into tasks, and `csv` stays unset |
| Client.TaskListCall | pyrus/client.py:3515-3526 | a GET of the task-list URL after the type checks |
| Client.OutcomeKwargs | pyrus/client.py:3528 | `resp.X(**response)` spreads exactly a decoded JSON object, and raises TypeError on anything else |
| Client.TaskListAnswerOf | pyrus/client.py:3528 | `TaskListResponse(**response)`: a decoded object builds the response from its members, anything else raises TypeError |
| Client.GetTaskList | pyrus/client.py:3503-3528 | the type errors surface before any request; otherwise the reply is decoded into a TaskListResponse |
| Client.TaskListDecodes | pyrus/client.py:3527-3528 | the task list the API returned is built from that reply's map |
| Client.TaskListRequestFlag | pyrus/client.py:3522-3527 | the request built for the task-list call is a GET of the task-list URL with the bearer token, and the URL carries the archive flag exactly when it was asked for |

## Left out

- **HTTP transport, proxies, streaming and JSON (de)serialisation** (`requests`, `jsonpickle`). The server is the reply sequence of a session, a request body is the constructed record, and `.json()` is a field of each reply.
- **`rfc6266` and the regex fallback** that read the download file name (client.py:3545-3548). These are library calls; the parsed name is a field of the reply.
- **File-system access** (`os.path.getsize`, `open`). The size is an input field.
- **`datetime.strftime` with the formats of the `constants` module.** These are opaque functions of the instant in `Values.Runtime`.
- **The constructors of `models.entities`.** These are opaque functions in `Responses.Entities`, so the entity objects inside a response are whatever those functions return.
- **The `isinstance(method, HTTPMethod)` check** (client.py:3637-3638). The method is a Dafny enumeration, so that TypeError cannot arise.
- **The other public wrappers** (`get_forms`, `get_contacts`, `get_catalog`, `get_task`, `comment_task`, `create_task`, `upload_file`, `get_lists`, `create_catalog`, `sync_catalog`). Each is a URL plus the executor plus one response constructor, and all three are modelled. Only the four calls with logic of their own (auth, download, register, task list) are modelled end to end.
- **The hard-coded form literal in `get_form`** (client.py:164-3420). It is demonstration data.
- **`print` calls** (client.py:145, responses.py:137).
- **Thread safety of the shared token.** The client is single-threaded.
- **The `__doc__` concatenations of the response classes.** They have no behaviour.
- **Duplicate keys in a dict.** A dict value is an ordered member list in which the first member with a key is the one a lookup sees. A decoded JSON object never holds a key twice.
- **Python's `int()` on strings** is modelled for ASCII digits, an optional sign, underscores between digits, and surrounding whitespace. Whitespace is the six ASCII whitespace characters (space, tab, line feed, vertical tab, form feed, carriage return) and every non-ASCII character `str.isspace()` accepts; the ASCII separators U+001C to U+001F are not stripped, as in CPython's `int()`. Non-ASCII digits (`int("٥")`) are not modelled.
- **Session state after an exception.** A failing call returns only the error and not the session. Python keeps attribute writes made before a raise:
  - the credentials `auth()` stores (client.py:73-76) before `_auth` raises KeyError;
  - a token `_auth` stores (client.py:3613) before a later upload-size exception or transport error.

  The model promises nothing about the client's state after a raised exception.
- **Default arguments.** `auth(login=None, security_key=None)` and `get_task_list(..., item_count=200, include_archived=False)` are modelled with every argument passed explicitly.
- **Client.GetRegistry**: takes the register query as an optional request body. A falsy argument that is not a request (`0`, `""`, `[]`) takes the GET path at client.py:103 exactly like `None`, so it is written as `None`.
- **The integer string conversion limit.** CPython 3.11 and later, and the security releases 3.10.7, 3.9.14, 3.8.14 and 3.7.14, raise ValueError when `int()` reads, or `str()` and `'{}'.format` write, a decimal integer of more than 4300 digits (the default of `sys.set_int_max_str_digits`). The model converts integers of any size: `Decimal.ParseInt`, `Decimal.IntToString`, `Values.Display` and `Client.IntText` never raise for length. So `Decimal.ParseIntOfIntToString` and `RequestFields.DecimalParticipantIsId` hold on such interpreters only up to that limit; beyond it a participant string of digits becomes an email there (requests.py:258-262), and building a URL or a filter name from such an int raises.
- **Decimal.ParseInt**: states the grammar every accepted string follows, and the value only through `Decimal.ParseIntOfIntToString` (every decimal rendering is accepted with its value). It does not state that every string following the grammar is accepted, nor the value of an underscored one.
- **RequestFields.CatalogItemsArg**: states the list check and the length only. Whether an item converts depends on `CatalogItem.fromliststr`, whose text is not part of this model.

=== FILE: client.dfy ===
/** The request pipeline of `PyrusAPI` (pyrus/client.py): URL and header
    construction, the dispatch of a call to the right HTTP request, the
    authentication exchange, the one-retry-on-401 executor and the mapping
    of the raw reply to what the caller gets back.

    The network is an oracle: a session holds the replies the server will
    give, in order, and a log of the requests sent.  Sending a request
    consumes the next reply; when none is left the transport raises. */
module Client {
  import opened Wrappers
  import opened Values
  import Decimal
  import opened RequestFields
  import opened Requests
  import opened Responses

  // ---------------------------------------------------------------- constants

  const UserAgent := "Pyrus API python client v 1.31.0"
  const DownloadFileBaseUrl := "https://files.pyrus.com/services/attachment?Id="

  /** `MAX_FILE_SIZE_IN_BYTES`: 250 MiB. */
  const MaxFileSizeInBytes: int := 250 * 1024 * 1024

  /** The size-check message: the limit divided twice by 1024 with true
      division, hence the trailing ".0". */
  const FileSizeMessage := "File size should not exceed 250.0 MB"

  /** The root every API URL starts with: `_protocol` "https", `_host`
      "api.pyrus.com" and `_base_path` "/v4", joined as `_create_url` joins
      them. */
  const ApiRoot := "https://api.pyrus.com/v4"

  // --------------------------------------------------------------------- URLs

  /** `_create_url`: the API root followed by the path suffix. */
  function CreateUrl(suffix: string): (url: string)
    ensures |url| == |ApiRoot| + |suffix|
    ensures url[..|ApiRoot|] == ApiRoot
    ensures url[|ApiRoot|..] == suffix
  {
    ApiRoot + suffix
  }

  /** Different suffixes give different URLs. */
  lemma CreateUrlInjective(a: string, b: string)
    requires CreateUrl(a) == CreateUrl(b)
    ensures a == b
  {
    assert a == CreateUrl(a)[|ApiRoot|..];
  }

  const ListIdMessage := "list_id must be an instance of int"
  const ItemCountMessage := "item_count must be an instance of int"
  const IncludeArchivedMessage := "include_archived must be an instance of bool"
  const ArchivedFlag := "&include_archived=y"

  predicate EndsWith(s: string, t: string) {
    |t| <= |s| && s[|s| - |t|..] == t
  }

  /** `'{}'.format(n)` for an int or a bool. */
  function IntText(v: Value): (s: string)
    requires IsInt(v)
    ensures |s| > 0 && s[|s| - 1] != 'y'
  {
    if v.Bool? then (if v.b then "True" else "False") else Decimal.IntToString(v.i)
  }

  /** The path `get_task_list` requests. */
  function TaskListPath(listId: Value, itemCount: Value, includeArchived: bool): (p: string)
    requires IsInt(listId) && IsInt(itemCount)
    ensures |p| >= |ArchivedFlag|
  {
    var base := "/lists/" + IntText(listId) + "/tasks?item_count=" + IntText(itemCount);
    if includeArchived then base + ArchivedFlag else base
  }

  /** The archive flag ends the path exactly when it was asked for: without
      it the path ends in the item count, whose last character is not 'y'. */
  lemma TaskListPathFlag(listId: Value, itemCount: Value, includeArchived: bool)
    requires IsInt(listId) && IsInt(itemCount)
    ensures EndsWith(TaskListPath(listId, itemCount, includeArchived), ArchivedFlag) <==> includeArchived
  {
    var p := TaskListPath(listId, itemCount, includeArchived);
    var count := IntText(itemCount);
    if !includeArchived {
      assert p[|p| - 1] == count[|count| - 1];
      assert ArchivedFlag[|ArchivedFlag| - 1] == 'y';
    }
  }

  /** Prefixing a URL root does not change how a long enough path ends. */
  lemma EndsWithUrl(path: string, t: string)
    requires |t| <= |path|
    ensures EndsWith(CreateUrl(path), t) <==> EndsWith(path, t)
  {
    var url := CreateUrl(path);
    assert url[|url| - |t|..] == path[|path| - |t|..];
  }

  /** The URL `get_task_list` requests, after its three type checks. */
  function TaskListUrl(listId: Value, itemCount: Value, includeArchived: Value): (r: Result<string, Error>)
    ensures r.Success? <==> IsInt(listId) && IsInt(itemCount) && includeArchived.Bool?
    ensures !IsInt(listId) ==> r == Failure(TypeError(ListIdMessage))
    ensures IsInt(listId) && !IsInt(itemCount) ==> r == Failure(TypeError(ItemCountMessage))
    ensures IsInt(listId) && IsInt(itemCount) && !includeArchived.Bool? ==> r == Failure(TypeError(IncludeArchivedMessage))
    ensures r.Success? ==> r.value == CreateUrl(TaskListPath(listId, itemCount, includeArchived.b))
    ensures r.Success? ==> (EndsWith(r.value, ArchivedFlag) <==> includeArchived.b)
  {
    if !IsInt(listId) then Failure(TypeError(ListIdMessage))
    else if !IsInt(itemCount) then Failure(TypeError(ItemCountMessage))
    else if !includeArchived.Bool? then Failure(TypeError(IncludeArchivedMessage))
    else
      var path := TaskListPath(listId, itemCount, includeArchived.b);
      TaskListPathFlag(listId, itemCount, includeArchived.b);
      EndsWithUrl(path, ArchivedFlag);
      Success(CreateUrl(path))
  }

  // ------------------------------------------------------------------ headers

  const UserAgentHeader := "User-Agent"
  const AuthorizationHeader := "Authorization"
  const ContentTypeHeader := "Content-Type"
  const JsonContentType := "application/json"

  type Headers = map<string, string>

  /** `'Bearer {}'.format(access_token)`. */
  function Bearer(rt: Runtime, token: Value): string {
    "Bearer " + Display(rt, token)
  }

  /** `_create_default_headers`: user agent, bearer token, JSON content type. */
  function DefaultHeaders(rt: Runtime, token: Value): (h: Headers)
    ensures h.Keys == {UserAgentHeader, AuthorizationHeader, ContentTypeHeader}
    ensures h[AuthorizationHeader] == Bearer(rt, token)
    ensures h[UserAgentHeader] == UserAgent && h[ContentTypeHeader] == JsonContentType
  {
    map[UserAgentHeader := UserAgent, AuthorizationHeader := Bearer(rt, token), ContentTypeHeader := JsonContentType]
  }

  /** The headers of a file upload: the default ones without `Content-Type`,
      which the multipart encoder supplies. */
  function UploadHeaders(rt: Runtime, token: Value): (h: Headers)
    ensures ContentTypeHeader !in h
    ensures forall k :: k in h <==> k in DefaultHeaders(rt, token) && k != ContentTypeHeader
    ensures forall k :: k in h ==> h[k] == DefaultHeaders(rt, token)[k]
  {
    DefaultHeaders(rt, token) - {ContentTypeHeader}
  }

  /** The headers of `_auth`: no bearer token, since there is none yet. */
  function AuthHeaders(): (h: Headers)
    ensures AuthorizationHeader !in h
    ensures h.Keys == {UserAgentHeader, ContentTypeHeader}
  {
    map[UserAgentHeader := UserAgent, ContentTypeHeader := JsonContentType]
  }

  // --------------------------------------------------------- requests, replies

  datatype HttpMethod = GET | POST | PUT

  /** What goes in the request body: nothing, a serialised request object,
      or a file opened from a path. */
  datatype Payload = NoPayload | JsonPayload(body: RequestBody) | FilePayload(path: string)

  datatype HttpRequest = HttpRequest(verb: HttpMethod, url: string, headers: Headers, payload: Payload, stream: bool)

  /** A server reply: the status code, the body as text and as bytes, what
      `.json()` gives for it (JsonDecodeError when it is not JSON), and the
      file name its Content-Disposition header yields. */
  datatype Reply = Reply(status: int, text: string, content: seq<bv8>, json: Result<Value, Error>, filename: Value)

  /** The client's state and the server oracle: the credentials, the access
      token (`Null` when none is held) and the replies still to come. */
  datatype Session = Session(login: Value, securityKey: Value, token: Value, replies: seq<Reply>)

  /** A file to upload: its path and its size in bytes, as the file system
      would report it. */
  datatype LocalFile = LocalFile(path: string, size: int)

  /** One API call as the public methods describe it to the executor. */
  datatype Call = Call(url: string, verb: HttpMethod, body: Option<RequestBody>, file: Option<LocalFile>, getFile: bool)

  /** `if file_path:` */
  predicate HasFile(c: Call) {
    c.file.Some? && c.file.value.path != ""
  }

  /** One request sent and the reply it got. */
  datatype Exchange = Exchange(request: HttpRequest, reply: Reply, session: Session)

  /** Sends `req`, consuming the next reply; with none left the transport
      raises. */
  function Send(s: Session, req: HttpRequest): (r: Result<Exchange, Error>)
    ensures r.Success? <==> |s.replies| > 0
    ensures r.Failure? ==> r.error == ConnectionError
    ensures r.Success? ==> r.value.request == req && r.value.reply == s.replies[0]
    ensures r.Success? ==> r.value.session == s.(replies := s.replies[1..])
  {
    if |s.replies| == 0 then Failure(ConnectionError)
    else Success(Exchange(req, s.replies[0], s.(replies := s.replies[1..])))
  }

  // ---------------------------------------------------------- _perform_request

  /** The five request shapes `_perform_request` chooses between. */
  datatype Route = PostFile | PostBody | PutBody | GetFile | GetJson

  function RouteMethod(route: Route): HttpMethod {
    match route
    case PostFile => POST
    case PostBody => POST
    case PutBody => PUT
    case GetFile => GET
    case GetJson => GET
  }

  /** The dispatch of `_perform_request`: the method decides, a file path
      matters only to POST and the file flag only to GET. */
  function RouteOf(c: Call): (route: Route)
    ensures RouteMethod(route) == c.verb
    ensures route == PostFile <==> c.verb == POST && HasFile(c)
    ensures route == GetFile <==> c.verb == GET && c.getFile
  {
    match c.verb
    case POST => if HasFile(c) then PostFile else PostBody
    case PUT => PutBody
    case GET => if c.getFile then GetFile else GetJson
  }

  /** An upload of this size is refused before any request is made. */
  predicate TooLarge(f: LocalFile) {
    f.size > MaxFileSizeInBytes
  }

  /** The request `_perform_request` sends with the given token.  A file over
      the size limit raises before anything is sent; a POST or PUT without a
      body reaches `requests.post(..., data=data)` with `data` never
      assigned. */
  function BuildRequest(rt: Runtime, token: Value, c: Call): (r: Result<HttpRequest, Error>)
    ensures RouteOf(c) == PostFile ==> (r.Failure? <==> TooLarge(c.file.value))
    ensures RouteOf(c) == PostFile && TooLarge(c.file.value) ==> r == Failure(Exception(FileSizeMessage))
    ensures RouteOf(c) in {PostBody, PutBody} ==> (r.Failure? <==> c.body.None?)
    ensures RouteOf(c) in {PostBody, PutBody} && c.body.None? ==> r == Failure(UnboundLocalError("data"))
    ensures RouteOf(c) in {GetFile, GetJson} ==> r.Success?
    ensures r.Success? ==> r.value.verb == c.verb && r.value.url == c.url
    ensures r.Success? ==> AuthorizationHeader in r.value.headers && r.value.headers[AuthorizationHeader] == Bearer(rt, token)
    ensures r.Success? ==> (ContentTypeHeader in r.value.headers <==> RouteOf(c) != PostFile)
    ensures r.Success? ==> (r.value.stream <==> RouteOf(c) == GetFile)
  {
    match RouteOf(c)
    case PostFile =>
      if TooLarge(c.file.value) then Failure(Exception(FileSizeMessage))
      else Success(HttpRequest(POST, c.url, UploadHeaders(rt, token), FilePayload(c.file.value.path), false))
    case PostBody =>
      if c.body.None? then Failure(UnboundLocalError("data"))
      else Success(HttpRequest(POST, c.url, DefaultHeaders(rt, token), JsonPayload(c.body.value), false))
    case PutBody =>
      if c.body.None? then Failure(UnboundLocalError("data"))
      else Success(HttpRequest(PUT, c.url, DefaultHeaders(rt, token), JsonPayload(c.body.value), false))
    case GetFile => Success(HttpRequest(GET, c.url, DefaultHeaders(rt, token), NoPayload, true))
    case GetJson => Success(HttpRequest(GET, c.url, DefaultHeaders(rt, token), NoPayload, false))
  }

  /** A file of exactly the limit is accepted; one byte more is not. */
  lemma UploadLimitBoundary(c: Call, token: Value, rt: Runtime)
    requires c.verb == POST && HasFile(c)
    ensures c.file.value.size == MaxFileSizeInBytes ==> BuildRequest(rt, token, c).Success?
    ensures c.file.value.size == MaxFileSizeInBytes + 1 ==> BuildRequest(rt, token, c) == Failure(Exception(FileSizeMessage))
  {
  }

  /** `_perform_request`: build the request with the token now held, send it. */
  function PerformRequest(rt: Runtime, s: Session, c: Call): (r: Result<Exchange, Error>)
    ensures BuildRequest(rt, s.token, c).Failure? ==> r == BuildRequest(rt, s.token, c).PropagateFailure()
    ensures r.Success? ==> BuildRequest(rt, s.token, c) == Success(r.value.request) && Send(s, r.value.request) == r
  {
    var req :- BuildRequest(rt, s.token, c);
    Send(s, req)
  }

  // --------------------------------------------------------------------- _auth

  /** The request `_auth` sends: the credentials as an AuthRequest body. */
  function AuthHttpRequest(s: Session): (r: HttpRequest)
    ensures r.verb == POST && r.url == CreateUrl("/auth") && !r.stream
    ensures KindOf(r) == AuthCall
    ensures r.headers.Keys == {UserAgentHeader, ContentTypeHeader}
    ensures r.headers[UserAgentHeader] == UserAgent && r.headers[ContentTypeHeader] == JsonContentType
    ensures r.payload.JsonPayload? && r.payload.body.AuthBody?
    ensures r.payload.body.auth.login == (if Truthy(s.login) then Some(s.login) else None)
    ensures r.payload.body.auth.securityKey == (if Truthy(s.securityKey) then Some(s.securityKey) else None)
  {
    HttpRequest(POST, CreateUrl("/auth"), AuthHeaders(), JsonPayload(AuthBody(NewAuthRequest(s.login, s.securityKey))), false)
  }

  /** What `_auth` returns (the decoded reply) and the session after it. */
  datatype AuthStep = AuthStep(request: HttpRequest, body: Value, session: Session)

  /** `_auth`: posts the credentials; on 200 the token becomes the body's
      `access_token` (KeyError when absent), on any other status it is
      cleared.  Either way the decoded body is returned. */
  function Authenticate(s: Session): (r: Result<AuthStep, Error>)
    ensures r.Success? ==> |s.replies| > 0 && s.replies[0].json.Success?
    ensures r.Success? ==> r.value.request == AuthHttpRequest(s) && r.value.body == s.replies[0].json.value
    ensures r.Success? ==> r.value.session.replies == s.replies[1..]
    ensures r.Success? ==> r.value.session.login == s.login && r.value.session.securityKey == s.securityKey
    ensures r.Success? && s.replies[0].status == 200 ==> Subscript(r.value.body, "access_token") == Success(r.value.session.token)
    ensures r.Success? && s.replies[0].status != 200 ==> r.value.session.token == Null
    ensures |s.replies| == 0 ==> r == Failure(ConnectionError)
    ensures |s.replies| > 0 && s.replies[0].json.Failure? ==> r == Failure(s.replies[0].json.error)
    ensures |s.replies| > 0 && s.replies[0].json.Success? ==>
      (r.Failure? <==> s.replies[0].status == 200 && Subscript(s.replies[0].json.value, "access_token").Failure?)
  {
    var x :- Send(s, AuthHttpRequest(s));
    var response :- x.reply.json;
    if x.reply.status == 200 then
      var token :- Subscript(response, "access_token");
      Success(AuthStep(x.request, response, x.session.(token := token)))
    else
      Success(AuthStep(x.request, response, x.session.(token := Null)))
  }

  // ------------------------------------------------------------ _get_response

  /** What a call hands back to the public method: a decoded JSON payload,
      the CSV text of a register query (a `FormRegisterResponse` whose only
      attribute is `csv`), or the raw reply of a file download. */
  datatype Outcome = Json(payload: Value) | Csv(text: string) | Raw(reply: Reply)

  /** `_get_response`: a CSV register query keeps the reply text verbatim, a
      file request keeps the reply itself, anything else is JSON-decoded. */
  function GetResponse(reply: Reply, c: Call): (r: Result<Outcome, Error>)
    ensures IsCsvRegister(c.body) ==> r == Success(Csv(reply.text))
    ensures !IsCsvRegister(c.body) && c.getFile ==> r == Success(Raw(reply))
    ensures !IsCsvRegister(c.body) && !c.getFile ==> (r.Success? <==> reply.json.Success?)
    ensures !IsCsvRegister(c.body) && !c.getFile && r.Success? ==> r.value == Json(reply.json.value)
  {
    if IsCsvRegister(c.body) then Success(Csv(reply.text))
    else if c.getFile then Success(Raw(reply))
    else
      var payload :- reply.json;
      Success(Json(payload))
  }

  // ------------------------------------------------ _perform_request_with_retry

  /** Which routine sent a request: `_auth` sends no bearer token, every API
      request does. */
  datatype Kind = AuthCall | ApiCall

  function KindOf(req: HttpRequest): Kind {
    if AuthorizationHeader in req.headers then ApiCall else AuthCall
  }

  function Kinds(reqs: seq<HttpRequest>): (ks: seq<Kind>)
    ensures |ks| == |reqs|
    ensures forall i :: 0 <= i < |reqs| ==> ks[i] == KindOf(reqs[i])
  {
    seq(|reqs|, i requires 0 <= i < |reqs| => KindOf(reqs[i]))
  }

  /** The request sequences `Attempt` can send: the API call, then on a 401
      an authentication, then, when that gave a token, one more API call. */
  const AttemptTraces: set<seq<Kind>> := {[ApiCall], [ApiCall, AuthCall], [ApiCall, AuthCall, ApiCall]}

  /** The requests one call sent, the session after it and what it returned. */
  datatype Done = Done(outcome: Outcome, session: Session, sent: seq<HttpRequest>)

  /** The call ended with the reply to the last request it sent: the outcome
      is that reply mapped by `_get_response` when it answered an API
      request, and the decoded body of a failed authentication otherwise. */
  predicate EndsWithReply(s: Session, c: Call, d: Done)
    requires 1 <= |d.sent| <= |s.replies|
  {
    var last := |d.sent| - 1;
    if KindOf(d.sent[last]) == ApiCall then GetResponse(s.replies[last], c) == Success(d.outcome)
    else s.replies[last].json.Success? && d.outcome == Json(s.replies[last].json.value) && !Truthy(d.session.token)
  }

  /** The executor never changes the stored credentials. */
  predicate SameCredentials(s: Session, t: Session) {
    t.login == s.login && t.securityKey == s.securityKey
  }

  /** What a run of the executor amounts to: how many requests it sent and
      what it handed back. */
  datatype Expect = Expect(count: nat, outcome: Outcome)

  /** The answer of an attempt read off the replies alone: a reply other
      than 401 is handled at once; after a 401 the second reply is the
      re-authentication, whose decoded body is the answer unless it stores
      a token, and then the third reply answers the repeated call. Each step
      raises as the code does: the request cannot be built, the replies run
      out, the reply does not decode, or `access_token` is missing. */
  function AttemptAnswer(rt: Runtime, s: Session, c: Call): (r: Result<Expect, Error>)
    ensures r.Success? ==> 1 <= r.value.count <= 3 && r.value.count <= |s.replies|
    ensures r.Success? && r.value.count == 1 ==> s.replies[0].status != 401
    ensures r.Success? && r.value.count > 1 ==> s.replies[0].status == 401 && (r.value.count == 3 <==> StoresToken(s.replies[1]))
  {
    if BuildRequest(rt, s.token, c).Failure? then Failure(BuildRequest(rt, s.token, c).error)
    else if |s.replies| == 0 then Failure(ConnectionError)
    else if s.replies[0].status != 401 then
      var o :- GetResponse(s.replies[0], c);
      Success(Expect(1, o))
    else if |s.replies| == 1 then Failure(ConnectionError)
    else
      var body :- s.replies[1].json;
      if s.replies[1].status == 200 && Subscript(body, "access_token").Failure? then
        Failure(Subscript(body, "access_token").error)
      else if !StoresToken(s.replies[1]) then Success(Expect(2, Json(body)))
      else
        var token := Subscript(body, "access_token").value;
        if BuildRequest(rt, token, c).Failure? then Failure(BuildRequest(rt, token, c).error)
        else if |s.replies| == 2 then Failure(ConnectionError)
        else
          var o :- GetResponse(s.replies[2], c);
          Success(Expect(3, o))
  }

  /** The first stage of `AttemptAnswer` in the executor's own steps: the
      call cannot be made, or its reply is not a 401. */
  lemma AnswerOfFirstReply(rt: Runtime, s: Session, c: Call)
    ensures PerformRequest(rt, s, c).Failure? ==> AttemptAnswer(rt, s, c) == Failure(PerformRequest(rt, s, c).error)
    ensures PerformRequest(rt, s, c).Success? && PerformRequest(rt, s, c).value.reply.status != 401 ==>
      var o := GetResponse(PerformRequest(rt, s, c).value.reply, c);
      AttemptAnswer(rt, s, c) == if o.Success? then Success(Expect(1, o.value)) else Failure(o.error)
  {
  }

  /** The second stage: after a 401, the re-authentication raises, or
      stores no token and its body is the answer. */
  lemma AnswerOfReauth(rt: Runtime, s: Session, c: Call, x: Exchange)
    requires PerformRequest(rt, s, c) == Success(x) && x.reply.status == 401
    ensures Authenticate(x.session).Failure? ==> AttemptAnswer(rt, s, c) == Failure(Authenticate(x.session).error)
    ensures Authenticate(x.session).Success? && !Truthy(Authenticate(x.session).value.session.token) ==>
      AttemptAnswer(rt, s, c) == Success(Expect(2, Json(Authenticate(x.session).value.body)))
  {
  }

  /** The last stage: the call repeated with the token the
      re-authentication stored. */
  lemma AnswerOfRepeat(rt: Runtime, s: Session, c: Call, x: Exchange, a: AuthStep)
    requires PerformRequest(rt, s, c) == Success(x) && x.reply.status == 401
    requires Authenticate(x.session) == Success(a) && Truthy(a.session.token)
    ensures PerformRequest(rt, a.session, c).Failure? ==> AttemptAnswer(rt, s, c) == Failure(PerformRequest(rt, a.session, c).error)
    ensures PerformRequest(rt, a.session, c).Success? ==>
      var o := GetResponse(PerformRequest(rt, a.session, c).value.reply, c);
      AttemptAnswer(rt, s, c) == if o.Success? then Success(Expect(3, o.value)) else Failure(o.error)
  {
  }

  /** A run `r` answers as `e` says, after `extra` requests made before it:
      it fails exactly when `e` does and with the same error, and otherwise
      sent that many requests and handed back that outcome. */
  predicate Answers(r: Result<Done, Error>, e: Result<Expect, Error>, extra: nat) {
    && (r.Success? <==> e.Success?)
    && (r.Failure? && e.Failure? ==> r.error == e.error)
    && (r.Success? && e.Success? ==> |r.value.sent| == e.value.count + extra && r.value.outcome == e.value.outcome)
  }

  /** What a completed attempt promises: its requests form one of the
      traces in `AttemptTraces`, one reply per request, ending with the reply
      to the last; the call is first made with the held token; credentials
      never change; without a 401 the stored token is left alone; after one
      the call is repeated exactly when the authentication stored a token,
      and the repeat carries that token, which stays stored. */
  predicate AttemptRan(rt: Runtime, s: Session, c: Call, d: Done) {
    && 1 <= |d.sent| <= |s.replies|
    && Kinds(d.sent) in AttemptTraces
    && d.session.replies == s.replies[|d.sent|..]
    && EndsWithReply(s, c, d)
    && BuildRequest(rt, s.token, c) == Success(d.sent[0])
    && SameCredentials(s, d.session)
    && (|d.sent| == 1 ==> d.session.token == s.token)
    && (|d.sent| > 1 ==> (|d.sent| == 3 <==> Truthy(d.session.token)))
    && (|d.sent| == 3 ==> BuildRequest(rt, d.session.token, c) == Success(d.sent[2]))
    && (KindOf(d.sent[|d.sent| - 1]) == ApiCall ==> BuildRequest(rt, d.session.token, c) == Success(d.sent[|d.sent| - 1]))
    && RetryShape(s, d, 0)
  }

  /** The part of the executor after a token is held: call the API, and on a
      401 authenticate again and call exactly once more, whatever the second
      status. */
  method Attempt(rt: Runtime, s: Session, c: Call) returns (r: Result<Done, Error>)
    ensures r.Success? ==> AttemptRan(rt, s, c, r.value)
    // whether it fails, with which error, and otherwise how many requests and what answer
    ensures Answers(r, AttemptAnswer(rt, s, c), 0)
  {
    AnswerOfFirstReply(rt, s, c);
    var x :- PerformRequest(rt, s, c);
    assert KindOf(x.request) == ApiCall;
    if x.reply.status != 401 {
      var out :- GetResponse(x.reply, c);
      assert Kinds([x.request]) == [ApiCall];
      return Success(Done(out, x.session, [x.request]));
    }
    r := AfterUnauthorized(rt, s, c, x);
  }

  /** The executor's answer to a 401: authenticate again and, when that
      stores a token, make the call once more. */
  method AfterUnauthorized(rt: Runtime, s: Session, c: Call, x: Exchange) returns (r: Result<Done, Error>)
    requires PerformRequest(rt, s, c) == Success(x) && x.reply.status == 401
    ensures r.Success? ==> AttemptRan(rt, s, c, r.value) && |r.value.sent| > 1
    ensures Answers(r, AttemptAnswer(rt, s, c), 0)
  {
    assert KindOf(x.request) == ApiCall;
    AnswerOfReauth(rt, s, c, x);
    var a :- Authenticate(x.session);
    assert KindOf(a.request) == AuthCall;
    if !Truthy(a.session.token) {
      assert Kinds([x.request, a.request]) == [ApiCall, AuthCall];
      return Success(Done(Json(a.body), a.session, [x.request, a.request]));
    }
    AnswerOfRepeat(rt, s, c, x, a);
    var y :- PerformRequest(rt, a.session, c);
    assert KindOf(y.request) == ApiCall;
    var out :- GetResponse(y.reply, c);
    assert Kinds([x.request, a.request, y.request]) == [ApiCall, AuthCall, ApiCall];
    return Success(Done(out, y.session, [x.request, a.request, y.request]));
  }

  /** How many requests of kind `k` a trace holds. */
  function Count(ks: seq<Kind>, k: Kind): (n: nat)
    ensures n <= |ks|
  {
    if ks == [] then 0 else (if ks[0] == k then 1 else 0) + Count(ks[1..], k)
  }

  /** The request sequences the executor can send: `Attempt`'s, possibly
      preceded by the authentication made when no token was held. */
  const RetryTraces: set<seq<Kind>> := AttemptTraces +
    {[AuthCall], [AuthCall, ApiCall], [AuthCall, ApiCall, AuthCall], [AuthCall, ApiCall, AuthCall, ApiCall]}

  /** No call reaches the API more than twice or authenticates more than
      twice. */
  lemma RetryTracesBounded(t: seq<Kind>)
    requires t in RetryTraces
    ensures Count(t, ApiCall) <= 2 && Count(t, AuthCall) <= 2
    ensures 1 <= |t| <= 4
  {
    var n := |t|;
    assert 1 <= n <= 4;
    // every trace alternates kinds, so each kind fills at most half of four
    assert forall i :: 0 <= i < n - 1 ==> t[i] != t[i + 1];
    CountAlternating(t, ApiCall);
    CountAlternating(t, AuthCall);
  }

  /** In a trace of at most four requests where no kind follows itself, each
      kind occurs at most twice. */
  lemma {:induction false} CountAlternating(t: seq<Kind>, k: Kind)
    requires |t| <= 4
    requires forall i :: 0 <= i < |t| - 1 ==> t[i] != t[i + 1]
    ensures Count(t, k) <= 2
  {
    if |t| > 2 {
      var rest := t[2..];
      assert t[1..][1..] == rest;
      assert Count(t, k) == (if t[0] == k then 1 else 0) + (if t[1] == k then 1 else 0) + Count(rest, k);
      if |rest| == 2 {
        assert rest[1..][1..] == [];
        assert Count(rest, k) == (if rest[0] == k then 1 else 0) + (if rest[1] == k then 1 else 0);
      } else {
        assert rest[1..] == [];
      }
    } else if |t| == 2 {
      assert t[1..][1..] == [];
    } else if |t| == 1 {
      assert t[1..] == [];
    }
  }

  /** An authentication followed by an attempt is a trace of the executor. */
  lemma AuthThenAttempt(t: seq<Kind>)
    requires t in AttemptTraces
    ensures [AuthCall] + t in RetryTraces
  {
    if t == [ApiCall] {
      assert [AuthCall] + t == [AuthCall, ApiCall];
    } else if t == [ApiCall, AuthCall] {
      assert [AuthCall] + t == [AuthCall, ApiCall, AuthCall];
    } else {
      assert [AuthCall] + t == [AuthCall, ApiCall, AuthCall, ApiCall];
    }
  }

  /** Prefixing an attempt with the authentication that answered the first
      reply keeps it a trace of the executor ending with its last reply. */
  lemma PrependAuth(s: Session, c: Call, a: AuthStep, d: Done)
    requires |s.replies| > 0 && a.session.replies == s.replies[1..] && KindOf(a.request) == AuthCall
    requires Kinds(d.sent) in AttemptTraces
    requires |d.sent| <= |a.session.replies| && d.session.replies == a.session.replies[|d.sent|..]
    requires EndsWithReply(a.session, c, d)
    ensures var e := d.(sent := [a.request] + d.sent);
      && Kinds(e.sent) == [AuthCall] + Kinds(d.sent)
      && 1 <= |e.sent| <= |s.replies| && e.session.replies == s.replies[|e.sent|..]
      && EndsWithReply(s, c, e)
  {
    var e := d.(sent := [a.request] + d.sent);
    assert Kinds(e.sent) == [AuthCall] + Kinds(d.sent);
    var last := |e.sent| - 1;
    assert e.sent[last] == d.sent[last - 1] && s.replies[last] == a.session.replies[last - 1];
  }

  /** The attempt's shape carries over, one reply later, to the run that
      authenticated first. */
  lemma PrependShape(s: Session, a: AuthStep, d: Done)
    requires |s.replies| > 0 && a.session.replies == s.replies[1..]
    requires |d.sent| <= |a.session.replies| && RetryShape(a.session, d, 0)
    ensures |[a.request] + d.sent| <= |s.replies|
    ensures RetryShape(s, d.(sent := [a.request] + d.sent), 1)
  {
    var e := d.(sent := [a.request] + d.sent);
    var n := |d.sent|;
    if n > 0 {
      assert s.replies[1] == a.session.replies[0];
    }
    if n == 2 {
      assert e.sent[2] == d.sent[1];
    }
    if n == 3 {
      assert s.replies[2] == a.session.replies[1];
    }
  }

  /** An attempt made with the token the first authentication obtained,
      prefixed with that authentication, moves the token as `TokenFlow`
      says. */
  lemma PrependAuthFlow(rt: Runtime, s: Session, c: Call, a: AuthStep, d: Done)
    requires Authenticate(s) == Success(a) && Truthy(a.session.token) && KindOf(a.request) == AuthCall
    requires 1 <= |d.sent| && BuildRequest(rt, a.session.token, c) == Success(d.sent[0])
    requires SameCredentials(a.session, d.session)
    requires KindOf(d.sent[|d.sent| - 1]) == ApiCall ==> BuildRequest(rt, d.session.token, c) == Success(d.sent[|d.sent| - 1])
    ensures TokenFlow(rt, s, c, d.(sent := [a.request] + d.sent))
  {
    var e := d.(sent := [a.request] + d.sent);
    assert e.sent[1..] == d.sent && e.sent[|e.sent| - 1] == d.sent[|d.sent| - 1];
  }

  /** What a completed run that authenticated first promises: its requests
      form one of the traces in `RetryTraces` and begin with the
      authentication request; one reply per request, ending with the reply
      to the last; the token moves as `TokenFlow` says; and the retry rule
      holds one reply later. */
  predicate AuthFirstRan(rt: Runtime, s: Session, c: Call, d: Done) {
    && 1 <= |d.sent| <= |s.replies|
    && Kinds(d.sent) in RetryTraces
    && d.sent[0] == AuthHttpRequest(s) && KindOf(d.sent[0]) == AuthCall
    && d.session.replies == s.replies[|d.sent|..]
    && EndsWithReply(s, c, d)
    && TokenFlow(rt, s, c, d)
    && RetryShape(s, d, 1)
  }

  /** An attempt made with the token the first authentication stored,
      prefixed with that authentication, is a run that authenticated
      first. */
  lemma PrependAttempt(rt: Runtime, s: Session, c: Call, a: AuthStep, d: Done)
    requires Authenticate(s) == Success(a) && Truthy(a.session.token)
    requires AttemptRan(rt, a.session, c, d)
    ensures AuthFirstRan(rt, s, c, d.(sent := [a.request] + d.sent))
  {
    assert KindOf(a.request) == AuthCall;
    AuthThenAttempt(Kinds(d.sent));
    PrependAuth(s, c, a, d);
    PrependAuthFlow(rt, s, c, a, d);
    PrependShape(s, a, d);
  }

  /** The executor when no token is held: authenticate, give up with the
      authentication reply when that yields no token, otherwise attempt the
      call with the new one. */
  method AuthFirst(rt: Runtime, s: Session, c: Call) returns (r: Result<Done, Error>)
    ensures r.Success? ==> AuthFirstRan(rt, s, c, r.value)
    ensures Authenticate(s).Failure? ==> r == Authenticate(s).PropagateFailure()
    ensures Authenticate(s).Success? && !Truthy(Authenticate(s).value.session.token) ==>
      r == Success(Done(Json(Authenticate(s).value.body), Authenticate(s).value.session, [AuthHttpRequest(s)]))
    // otherwise the attempt made with the new token decides the answer
    ensures Authenticate(s).Success? && Truthy(Authenticate(s).value.session.token) ==>
      Answers(r, AttemptAnswer(rt, Authenticate(s).value.session, c), 1)
  {
    var a :- Authenticate(s);
    assert a == Authenticate(s).value;
    if !Truthy(a.session.token) {
      assert Kinds([a.request]) == [AuthCall];
      return Success(Done(Json(a.body), a.session, [a.request]));
    }
    var d :- Attempt(rt, a.session, c);
    PrependAttempt(rt, s, c, a, d);
    return Success(d.(sent := [a.request] + d.sent));
  }

  /** How the stored token moves through a run: credentials are kept; a
      held token survives a run without authentication; without one, the
      call is made with the token the first authentication obtained; and a
      run that ends at the API leaves stored the token its last request
      carried. */
  predicate TokenFlow(rt: Runtime, s: Session, c: Call, d: Done)
    requires 1 <= |d.sent|
  {
    && SameCredentials(s, d.session)
    && (|d.sent| == 1 && KindOf(d.sent[0]) == ApiCall ==> d.session.token == s.token)
    && (!Truthy(s.token) && |d.sent| > 1 ==>
          && Authenticate(s).Success? && Truthy(Authenticate(s).value.session.token)
          && BuildRequest(rt, Authenticate(s).value.session.token, c) == Success(d.sent[1]))
    && (KindOf(d.sent[|d.sent| - 1]) == ApiCall ==> BuildRequest(rt, d.session.token, c) == Success(d.sent[|d.sent| - 1]))
  }

  /** An authentication reply that stores `token`: status 200 and a truthy
      `access_token`. */
  predicate GivesToken(reply: Reply, token: Value) {
    && reply.status == 200 && reply.json.Success?
    && Subscript(reply.json.value, "access_token") == Success(token) && Truthy(token)
  }

  /** When the executor retries, for a run whose call was first made after
      `f` authentications: the call is repeated exactly when its first reply
      was a 401; the re-authentication then ends the run unless it stored a
      token, and the repeated call is the last request. */
  predicate RetryShape(s: Session, d: Done, f: nat)
    requires |d.sent| <= |s.replies|
  {
    && |d.sent| <= f + 3
    && (|d.sent| > f ==> (|d.sent| > f + 1 <==> s.replies[f].status == 401))
    && (|d.sent| == f + 2 ==> KindOf(d.sent[f + 1]) == AuthCall && !StoresToken(s.replies[f + 1]))
    && (|d.sent| == f + 3 ==> GivesToken(s.replies[f + 1], d.session.token))
  }

  /** What a caller of the executor relies on: it sent between one request
      and as many as there were replies, consumed one reply per request,
      ended with the reply to its last request, and, when a token was held,
      began with the call itself made with that token. */
  predicate Executed(rt: Runtime, s: Session, c: Call, d: Done) {
    && 1 <= |d.sent| <= |s.replies|
    && d.session.replies == s.replies[|d.sent|..]
    && EndsWithReply(s, c, d)
    && (Truthy(s.token) ==> BuildRequest(rt, s.token, c) == Success(d.sent[0]))
    && TokenFlow(rt, s, c, d)
    && RetryShape(s, d, if Truthy(s.token) then 0 else 1)
  }

  /** `_perform_request_with_retry`: without a token, authenticate first and
      give up with the authentication reply when that yields none; then make
      the call, retrying once after a 401. */
  method Retry(rt: Runtime, s: Session, c: Call) returns (r: Result<Done, Error>)
    ensures r.Success? ==> Kinds(r.value.sent) in RetryTraces
    ensures r.Success? ==> Executed(rt, s, c, r.value)
    // a held token is used at once
    ensures r.Success? && Truthy(s.token) ==> Kinds(r.value.sent) in AttemptTraces
    // without one, the authentication comes first ...
    ensures !Truthy(s.token) && Authenticate(s).Failure? ==> r == Authenticate(s).PropagateFailure()
    ensures r.Success? && !Truthy(s.token) ==> r.value.sent[0] == AuthHttpRequest(s)
    // ... and when it yields no token its reply is the whole answer
    ensures !Truthy(s.token) && Authenticate(s).Success? && !Truthy(Authenticate(s).value.session.token) ==>
      r == Success(Done(Json(Authenticate(s).value.body), Authenticate(s).value.session, [AuthHttpRequest(s)]))
    // whether the run fails, and otherwise how many requests and what answer
    ensures Truthy(s.token) ==> Answers(r, AttemptAnswer(rt, s, c), 0)
    ensures !Truthy(s.token) && Authenticate(s).Success? && Truthy(Authenticate(s).value.session.token) ==>
      Answers(r, AttemptAnswer(rt, Authenticate(s).value.session, c), 1)
  {
    if Truthy(s.token) {
      r := Attempt(rt, s, c);
    } else {
      r := AuthFirst(rt, s, c);
    }
    if r.Success? {
      RetryTracesBounded(Kinds(r.value.sent));
    }
  }

  // ---------------------------------------------------------- public calls

  /** What a public method returns, with the executor's run behind it. */
  datatype Answer<T> = Answer(value: T, done: Done)

  /** The last reply of a run. */
  function LastReply(s: Session, d: Done): Reply
    requires 1 <= |d.sent| <= |s.replies|
  {
    s.replies[|d.sent| - 1]
  }

  /** Whether the last request of a run went to the API (rather than being
      a failed authentication). */
  predicate EndedAtApi(d: Done)
    requires 1 <= |d.sent|
  {
    KindOf(d.sent[|d.sent| - 1]) == ApiCall
  }

  /** `resp.X(**response)` on what the executor returned: only a decoded
      JSON object spreads into keyword arguments. */
  function OutcomeKwargs(o: Outcome): (r: Result<seq<Member>, Error>)
    ensures r.Success? <==> o.Json? && o.payload.Dict?
    ensures r.Success? ==> r.value == o.payload.members
    ensures r.Failure? ==> r.error == TypeError(MappingMessage)
  {
    match o
    case Json(v) => Splat(v)
    case _ => Failure(TypeError(MappingMessage))
  }

  /** A JSON call answered by the API ends with that reply decoded. */
  lemma JsonReplyOutcome(rt: Runtime, s: Session, c: Call, d: Done)
    requires Executed(rt, s, c, d) && EndedAtApi(d) && !IsCsvRegister(c.body) && !c.getFile
    ensures LastReply(s, d).json.Success? && d.outcome == Json(LastReply(s, d).json.value)
  {
  }

  /** `auth(login, security_key)`: truthy arguments replace the stored
      credentials, then `_auth` runs and its reply becomes an AuthResponse. */
  function SignIn(s: Session, login: Value, securityKey: Value): (r: Result<Answer<AuthResponse>, Error>)
    ensures r.Success? ==> r.value.done.session.login == (if Truthy(login) then login else s.login)
    ensures r.Success? ==> r.value.done.session.securityKey == (if Truthy(securityKey) then securityKey else s.securityKey)
    ensures r.Success? ==> r.value.done.sent == [AuthHttpRequest(r.value.done.session.(replies := s.replies))]
    ensures r.Success? ==> |s.replies| > 0 && r.value.done.session.replies == s.replies[1..]
    // on 200 the response and the session hold the same token ...
    ensures r.Success? && s.replies[0].status == 200 ==>
      r.value.value.success && r.value.value.accessToken == r.value.done.session.token
    // ... otherwise the session holds none
    ensures r.Success? && s.replies[0].status != 200 ==> r.value.done.session.token == Null
  {
    var s1 := s.(login := if Truthy(login) then login else s.login,
                 securityKey := if Truthy(securityKey) then securityKey else s.securityKey);
    var a :- Authenticate(s1);
    var kwargs :- Splat(a.body);
    Success(Answer(NewAuthResponse(kwargs), Done(Json(a.body), a.session, [a.request])))
  }

  // ----------------------------------------------------------- download_file

  const FileIdMessage := "file_id must be an instance of int"
  const StatusCodeMessage := "'dict' object has no attribute 'status_code'"

  /** The error code of a failed download. */
  function DownloadErrorCode(status: int): (code: string)
    ensures code == "authorization_error" <==> status == 401
    ensures code == "access_denied_file" <==> status == 403 || status == 404
    ensures code == "ServerError" <==> status != 401 && status != 403 && status != 404
  {
    if status == 401 then "authorization_error"
    else if status == 403 || status == 404 then "access_denied_file"
    else "ServerError"
  }

  /** What `download_file` returns: the file, or a bare response carrying
      only an error code. */
  datatype DownloadAnswer = Downloaded(file: DownloadResponse) | DownloadFailed(failure: BaseResponse)

  /** The error response of a failed download. */
  function DownloadFailure(status: int): (r: BaseResponse)
    ensures r.errorCode == Str(DownloadErrorCode(status)) && r.error == Null
  {
    NewBaseResponse([Member("error_code", Str(DownloadErrorCode(status)))])
  }

  /** The call `download_file` makes: a streamed GET of the attachment URL. */
  function DownloadCall(fileId: Value): (c: Call)
    requires IsInt(fileId)
    ensures c.verb == GET && c.getFile && c.body.None? && RouteOf(c) == GetFile
    ensures c.url == DownloadFileBaseUrl + IntText(fileId)
  {
    Call(DownloadFileBaseUrl + IntText(fileId), GET, None, None, true)
  }

  /** The status test of `download_file` on what the executor returned; a
      decoded authentication reply has no `status_code`. */
  function DownloadAnswerOf(o: Outcome): (r: Result<DownloadAnswer, Error>)
    ensures !o.Raw? ==> r == Failure(AttributeError(StatusCodeMessage))
    ensures o.Raw? && o.reply.status == 200 ==> r == Success(Downloaded(NewDownloadResponse(o.reply.filename, o.reply.content)))
    ensures o.Raw? && o.reply.status != 200 ==> r.Success? && r.value.DownloadFailed?
    ensures o.Raw? && o.reply.status != 200 ==> r.value.failure.errorCode == Str(DownloadErrorCode(o.reply.status))
  {
    match o
    case Raw(reply) =>
      if reply.status == 200 then Success(Downloaded(NewDownloadResponse(reply.filename, reply.content)))
      else Success(DownloadFailed(DownloadFailure(reply.status)))
    case _ => Failure(AttributeError(StatusCodeMessage))
  }

  /** `download_file(file_id)`. */
  method DownloadFile(rt: Runtime, s: Session, fileId: Value) returns (r: Result<Answer<DownloadAnswer>, Error>)
    ensures !IsInt(fileId) ==> r == Failure(TypeError(FileIdMessage))
    ensures r.Success? ==> IsInt(fileId) && Executed(rt, s, DownloadCall(fileId), r.value.done)
    ensures r.Success? ==> DownloadAnswerOf(r.value.done.outcome) == Success(r.value.value)
    // a failed first authentication leaves a dict where a reply was expected
    ensures IsInt(fileId) && !Truthy(s.token) && Authenticate(s).Success? && !Truthy(Authenticate(s).value.session.token) ==>
      r == Failure(AttributeError(StatusCodeMessage))
    // so does a 401 on a held token followed by an authentication that stores none
    ensures IsInt(fileId) && TokenRejectedForGood(s) ==> r.Failure?
  {
    if !IsInt(fileId) {
      return Failure(TypeError(FileIdMessage));
    }
    var d :- Retry(rt, s, DownloadCall(fileId));
    if TokenRejectedForGood(s) {
      DownloadAfterFailedReauth(rt, s, fileId, d);
    }
    var answer :- DownloadAnswerOf(d.outcome);
    return Success(Answer(answer, d));
  }

  /** A download that returns ended with an API reply; a 200 gives the
      reply's bytes, any other status the error code of that status. */
  lemma DownloadMapsLastReply(rt: Runtime, s: Session, fileId: Value, d: Done, answer: DownloadAnswer)
    requires IsInt(fileId) && Executed(rt, s, DownloadCall(fileId), d)
    requires DownloadAnswerOf(d.outcome) == Success(answer)
    ensures EndedAtApi(d)
    ensures LastReply(s, d).status == 200 ==>
      answer == Downloaded(NewDownloadResponse(LastReply(s, d).filename, LastReply(s, d).content))
    ensures LastReply(s, d).status != 200 ==> answer == DownloadFailed(DownloadFailure(LastReply(s, d).status))
  {
  }

  /** A held token answered with 401, and a re-authentication reply that
      stores no token. */
  predicate TokenRejectedForGood(s: Session) {
    && Truthy(s.token) && |s.replies| > 1 && s.replies[0].status == 401
    && !StoresToken(s.replies[1])
  }

  /** An authentication reply whose `access_token` is truthy. */
  predicate StoresToken(reply: Reply) {
    && reply.status == 200 && reply.json.Success?
    && Subscript(reply.json.value, "access_token").Success?
    && Truthy(Subscript(reply.json.value, "access_token").value)
  }

  /** After `TokenRejectedForGood` the executor hands back the decoded
      authentication reply, which has no `status_code`. */
  lemma DownloadAfterFailedReauth(rt: Runtime, s: Session, fileId: Value, d: Done)
    requires IsInt(fileId) && Executed(rt, s, DownloadCall(fileId), d)
    requires TokenRejectedForGood(s)
    ensures |d.sent| == 2 && KindOf(d.sent[1]) == AuthCall
    ensures DownloadAnswerOf(d.outcome) == Failure(AttributeError(StatusCodeMessage))
  {
  }

  // ------------------------------------------------------------ get_registry

  const RegisterRequestMessage := "form_register_request must be an instance of models.requests.FormRegisterRequest"

  /** The call `get_registry` makes: a POST of the query when one is given,
      a plain GET otherwise. */
  function RegistryCall(rt: Runtime, formId: Value, request: Option<RequestBody>): (c: Call)
    ensures c.verb == (if request.Some? then POST else GET) && c.body == request && !c.getFile
    ensures c.url == CreateUrl("/forms/" + Display(rt, formId) + "/register")
  {
    Call(CreateUrl("/forms/" + Display(rt, formId) + "/register"), if request.Some? then POST else GET, request, None, false)
  }

  /** What `get_registry` returns: a register response, or, for a CSV
      query, whatever the executor returned when it was not CSV text (the
      decoded authentication reply). */
  datatype RegistryAnswer = Register(response: FormRegisterResponse) | Passed(outcome: Outcome)

  /** The tail of `get_registry`: a CSV query returns the executor's result
      as it is, any other builds a FormRegisterResponse from it. */
  function RegistryAnswerOf(en: Entities, request: Option<RequestBody>, o: Outcome): (r: Result<RegistryAnswer, Error>)
    ensures IsCsvRegister(request) && o.Csv? ==> r == Success(Register(CsvRegisterResponse(o.text)))
    ensures IsCsvRegister(request) && !o.Csv? ==> r == Success(Passed(o))
    ensures !IsCsvRegister(request) ==> (r.Success? <==> OutcomeKwargs(o).Success? && NewFormRegisterResponse(en, o.payload.members).Success?)
    ensures !IsCsvRegister(request) && r.Success? ==> r.value == Register(NewFormRegisterResponse(en, o.payload.members).value)
  {
    if IsCsvRegister(request) then
      Success(if o.Csv? then Register(CsvRegisterResponse(o.text)) else Passed(o))
    else
      var kwargs :- OutcomeKwargs(o);
      var response :- NewFormRegisterResponse(en, kwargs);
      Success(Register(response))
  }

  /** `get_registry(form_id, form_register_request)`. */
  method GetRegistry(rt: Runtime, en: Entities, s: Session, formId: Value, request: Option<RequestBody>)
    returns (r: Result<Answer<RegistryAnswer>, Error>)
    ensures request.Some? && !request.value.FormRegisterBody? ==> r == Failure(TypeError(RegisterRequestMessage))
    ensures r.Success? ==> Executed(rt, s, RegistryCall(rt, formId, request), r.value.done)
    ensures r.Success? ==> RegistryAnswerOf(en, request, r.value.done.outcome) == Success(r.value.value)
  {
    if request.Some? && !request.value.FormRegisterBody? {
      return Failure(TypeError(RegisterRequestMessage));
    }
    var d :- Retry(rt, s, RegistryCall(rt, formId, request));
    var answer :- RegistryAnswerOf(en, request, d.outcome);
    return Success(Answer(answer, d));
  }

  /** A CSV query the API answered returns that reply's text verbatim and
      no tasks. */
  lemma CsvRegistryKeepsText(rt: Runtime, en: Entities, s: Session, formId: Value, request: Option<RequestBody>, d: Done, answer: RegistryAnswer)
    requires Executed(rt, s, RegistryCall(rt, formId, request), d) && EndedAtApi(d)
    requires IsCsvRegister(request) && RegistryAnswerOf(en, request, d.outcome) == Success(answer)
    ensures answer == Register(CsvRegisterResponse(LastReply(s, d).text))
    ensures answer.response.csv == Some(LastReply(s, d).text) && answer.response.tasks.None?
  {
  }

  /** Any other query the API answered decodes that reply into tasks. */
  lemma JsonRegistryDecodes(rt: Runtime, en: Entities, s: Session, formId: Value, request: Option<RequestBody>, d: Done, answer: RegistryAnswer)
    requires Executed(rt, s, RegistryCall(rt, formId, request), d) && EndedAtApi(d)
    requires !IsCsvRegister(request) && RegistryAnswerOf(en, request, d.outcome) == Success(answer)
    ensures LastReply(s, d).json.Success? && LastReply(s, d).json.value.Dict?
    ensures answer.Register? && answer.response.csv.None?
    ensures NewFormRegisterResponse(en, LastReply(s, d).json.value.members) == Success(answer.response)
  {
    JsonReplyOutcome(rt, s, RegistryCall(rt, formId, request), d);
  }

  // ----------------------------------------------------------- get_task_list

  /** The call `get_task_list` makes once its arguments pass the type
      checks: a GET of the task-list URL. */
  function TaskListCall(listId: Value, itemCount: Value, includeArchived: Value): (r: Result<Call, Error>)
    ensures r.Success? <==> TaskListUrl(listId, itemCount, includeArchived).Success?
    ensures r.Failure? ==> r.error == TaskListUrl(listId, itemCount, includeArchived).error
    ensures r.Success? ==> includeArchived.Bool? && r.value.verb == GET && !r.value.getFile && r.value.body.None?
    ensures r.Success? ==> r.value.url == TaskListUrl(listId, itemCount, includeArchived).value
    ensures r.Success? ==> (EndsWith(r.value.url, ArchivedFlag) <==> includeArchived.b)
  {
    var url :- TaskListUrl(listId, itemCount, includeArchived);
    Success(Call(url, GET, None, None, false))
  }

  /** `TaskListResponse(**response)`. */
  function TaskListAnswerOf(en: Entities, o: Outcome): (r: Result<TaskListResponse, Error>)
    ensures !(o.Json? && o.payload.Dict?) ==> r == Failure(TypeError(MappingMessage))
    ensures o.Json? && o.payload.Dict? ==> r == NewTaskListResponse(en, o.payload.members)
  {
    var kwargs :- OutcomeKwargs(o);
    NewTaskListResponse(en, kwargs)
  }

  /** `get_task_list(list_id, item_count, include_archived)`. */
  method GetTaskList(rt: Runtime, en: Entities, s: Session, listId: Value, itemCount: Value, includeArchived: Value)
    returns (r: Result<Answer<TaskListResponse>, Error>)
    ensures TaskListCall(listId, itemCount, includeArchived).Failure? ==> r == TaskListCall(listId, itemCount, includeArchived).PropagateFailure()
    ensures r.Success? ==> TaskListCall(listId, itemCount, includeArchived).Success?
    ensures r.Success? ==> Executed(rt, s, TaskListCall(listId, itemCount, includeArchived).value, r.value.done)
    ensures r.Success? ==> TaskListAnswerOf(en, r.value.done.outcome) == Success(r.value.value)
  {
    var c :- TaskListCall(listId, itemCount, includeArchived);
    var d :- Retry(rt, s, c);
    var response :- TaskListAnswerOf(en, d.outcome);
    return Success(Answer(response, d));
  }

  /** The task list the API returned is decoded from its reply, and the
      request carried the archive flag exactly when it was asked for. */
  lemma TaskListDecodes(rt: Runtime, en: Entities, s: Session, c: Call, d: Done, response: TaskListResponse)
    requires Executed(rt, s, c, d) && EndedAtApi(d) && !c.getFile && c.body.None?
    requires TaskListAnswerOf(en, d.outcome) == Success(response)
    ensures LastReply(s, d).json.Success? && LastReply(s, d).json.value.Dict?
    ensures NewTaskListResponse(en, LastReply(s, d).json.value.members) == Success(response)
  {
    JsonReplyOutcome(rt, s, c, d);
  }

  /** The request built for the task-list call is a bearer GET of the
      task-list URL, carrying the archive flag exactly when asked; with a
      token held it is the first request sent (`Executed`). */
  lemma TaskListRequestFlag(rt: Runtime, token: Value, listId: Value, itemCount: Value, includeArchived: Value)
    requires IsInt(listId) && IsInt(itemCount) && includeArchived.Bool?
    ensures TaskListCall(listId, itemCount, includeArchived).Success?
    ensures BuildRequest(rt, token, TaskListCall(listId, itemCount, includeArchived).value).Success?
    ensures var req := BuildRequest(rt, token, TaskListCall(listId, itemCount, includeArchived).value).value;
      && req.verb == GET && req.url == TaskListUrl(listId, itemCount, includeArchived).value
      && (EndsWith(req.url, ArchivedFlag) <==> includeArchived.b)
      && req.headers[AuthorizationHeader] == Bearer(rt, token)
  {
  }
}

=== FILE: comment_request.dfy ===
/** `TaskCommentRequest` (pyrus/models/requests.py, lines 139-358).  The
    constructor is one long run of `if arg:` blocks, each storing its checked
    argument as an attribute or raising.  The blocks are grouped here in
    source order; each group is a method whose result records, per attribute
    it owns, the value stored (`None`: the attribute is not set).  The first
    group to raise decides the error. */
module CommentRequests {
  import opened Wrappers
  import opened Values
  import opened RequestFields

  datatype TaskCommentArgs = TaskCommentArgs(
    text: Value, approvalChoice: Value, approvalSteps: Value, action: Value,
    attachments: Value, fieldUpdates: Value, approvalsAdded: Value,
    participantsAdded: Value, reassignTo: Value, due: Value, dueDate: Value,
    duration: Value, scheduledDate: Value, scheduledDatetimeUtc: Value,
    cancelSchedule: Value, addedListIds: Value, removedListIds: Value,
    approvalsRemoved: Value, approvalsRerequested: Value, subscribersAdded: Value,
    subscribersRemoved: Value, subscribersRerequested: Value, subject: Value,
    participantsRemoved: Value, channel: Value, spentMinutes: Value)

  const ApprovalChoiceMessage := "approval_choice can only be 'approved', 'rejected', 'acknowledged', or 'revoked'"
  const ActionMessage := "action can only be 'finished' or 'reopened'"
  const DurationTypeMessage := "duration must be an int"
  const DurationDueMessage := "duration can only be used with due"
  const CancelScheduleMessage := "cancel_schedule must be a bool"
  const SpentMinutesMessage := "spent_minutes must be an int"
  const DueConflict := ValueError("either due_date or due can be set")

  // ------------------------------------------------- text ... attachments

  datatype HeadAttrs = HeadAttrs(
    text: Option<Value>, subject: Option<Value>, approvalChoice: Option<Value>,
    action: Option<Value>, reassignTo: Option<Value>, attachments: Option<Value>)

  predicate HeadAccepted(a: TaskCommentArgs) {
    && (Truthy(a.approvalChoice) ==> a.approvalChoice.Str? && a.approvalChoice.s in ApprovalChoices)
    && (Truthy(a.action) ==> a.action.Str? && a.action.s in CommentActions)
    && (Truthy(a.attachments) ==> a.attachments.List?)
  }

  /** `text`, `subject`, `approval_choice`, `action`, `reassign_to`, `attachments`. */
  method CommentHead(a: TaskCommentArgs) returns (r: Result<HeadAttrs, Error>)
    ensures r.Success? <==> HeadAccepted(a)
    ensures Truthy(a.approvalChoice) && !(a.approvalChoice.Str? && a.approvalChoice.s in ApprovalChoices) ==>
      r == Failure(TypeError(ApprovalChoiceMessage))
    ensures r.Success? ==> r.value.text == IfGiven(a.text, a.text)
    ensures r.Success? ==> r.value.subject == IfGiven(a.subject, a.subject)
    ensures r.Success? ==> r.value.approvalChoice == IfGiven(a.approvalChoice, a.approvalChoice)
    ensures r.Success? ==> r.value.action == IfGiven(a.action, a.action)
    ensures r.Success? ==> r.value.reassignTo == IfGiven(a.reassignTo, CoercePerson(a.reassignTo))
    ensures r.Success? ==> r.value.attachments == IfGiven(a.attachments, a.attachments)
  {
    var text, subject, choice, action, reassignTo, attachments := None, None, None, None, None, None;
    if Truthy(a.text) {
      text := Some(a.text);
    }
    if Truthy(a.subject) {
      subject := Some(a.subject);
    }
    if Truthy(a.approvalChoice) {
      if !(a.approvalChoice.Str? && a.approvalChoice.s in ApprovalChoices) {
        return Failure(TypeError(ApprovalChoiceMessage));
      }
      choice := Some(a.approvalChoice);
    }
    if Truthy(a.action) {
      if !(a.action.Str? && a.action.s in CommentActions) {
        return Failure(TypeError(ActionMessage));
      }
      action := Some(a.action);
    }
    if Truthy(a.reassignTo) {
      reassignTo := Some(CoercePerson(a.reassignTo));
    }
    if Truthy(a.attachments) {
      if !a.attachments.List? {
        return Failure(TypeError(AttachmentsMessage));
      }
      attachments := Some(a.attachments);
    }
    return Success(HeadAttrs(text, subject, choice, action, reassignTo, attachments));
  }

  // ------------------------------------------------------------- approvals

  datatype ApprovalAttrs = ApprovalAttrs(added: Option<Value>, removed: Option<Value>, rerequested: Option<Value>)

  predicate ApprovalsAccepted(a: TaskCommentArgs) {
    && (Truthy(a.approvalsAdded) ==> IsListOfLists(a.approvalsAdded))
    && (Truthy(a.approvalsRemoved) ==> IsListOfLists(a.approvalsRemoved))
    && (Truthy(a.approvalsRerequested) ==> IsListOfLists(a.approvalsRerequested))
  }

  /** `approvals_added`, `approvals_removed`, `approvals_rerequested`: each a
      list of approval steps, stored with every person coerced. */
  method CommentApprovals(a: TaskCommentArgs) returns (r: Result<ApprovalAttrs, Error>)
    ensures r.Success? <==> ApprovalsAccepted(a)
    ensures r.Success? ==> r.value.added == Stored(a.approvalsAdded, ApprovalsArg(a.approvalsAdded, "approvals_added"))
    ensures r.Success? ==> r.value.removed == Stored(a.approvalsRemoved, ApprovalsArg(a.approvalsRemoved, "approvals_removed"))
    ensures r.Success? ==>
      r.value.rerequested == Stored(a.approvalsRerequested, ApprovalsArg(a.approvalsRerequested, "approvals_rerequested"))
  {
    var added, removed, rerequested := None, None, None;
    if Truthy(a.approvalsAdded) {
      var v :- ApprovalsArg(a.approvalsAdded, "approvals_added");
      added := Some(v);
    }
    if Truthy(a.approvalsRemoved) {
      var v :- ApprovalsArg(a.approvalsRemoved, "approvals_removed");
      removed := Some(v);
    }
    if Truthy(a.approvalsRerequested) {
      var v :- ApprovalsArg(a.approvalsRerequested, "approvals_rerequested");
      rerequested := Some(v);
    }
    return Success(ApprovalAttrs(added, removed, rerequested));
  }

  // ---------------------------------------------- subscribers, participants

  datatype PeopleAttrs = PeopleAttrs(
    subscribersAdded: Option<Value>, subscribersRemoved: Option<Value>, subscribersRerequested: Option<Value>,
    participantsAdded: Option<Value>, participantsRemoved: Option<Value>)

  predicate PeopleAccepted(a: TaskCommentArgs) {
    && (Truthy(a.subscribersAdded) ==> a.subscribersAdded.List?)
    && (Truthy(a.subscribersRemoved) ==> a.subscribersRemoved.List?)
    && (Truthy(a.subscribersRerequested) ==> a.subscribersRerequested.List?)
    && (Truthy(a.participantsAdded) ==> IsParticipantList(a.participantsAdded))
    && (Truthy(a.participantsRemoved) ==> IsParticipantList(a.participantsRemoved))
  }

  /** The subscriber lists (persons coerced) and the participant lists
      (coerced through `int()`). */
  method CommentPeople(a: TaskCommentArgs) returns (r: Result<PeopleAttrs, Error>)
    ensures r.Success? <==> PeopleAccepted(a)
    ensures r.Success? ==>
      r.value.subscribersAdded == Stored(a.subscribersAdded, PersonListArg(a.subscribersAdded, "subscribers_added"))
    ensures r.Success? ==>
      r.value.subscribersRemoved == Stored(a.subscribersRemoved, PersonListArg(a.subscribersRemoved, "subscribers_removed"))
    ensures r.Success? ==>
      r.value.subscribersRerequested ==
        Stored(a.subscribersRerequested, PersonListArg(a.subscribersRerequested, "subscribers_rerequested"))
    ensures r.Success? ==>
      r.value.participantsAdded == Stored(a.participantsAdded, ParticipantListArg(a.participantsAdded, "participants_added"))
    ensures r.Success? ==>
      r.value.participantsRemoved ==
        Stored(a.participantsRemoved, ParticipantListArg(a.participantsRemoved, "participants_removed"))
  {
    var sAdded, sRemoved, sRerequested, pAdded, pRemoved := None, None, None, None, None;
    if Truthy(a.subscribersAdded) {
      var v :- PersonListArg(a.subscribersAdded, "subscribers_added");
      sAdded := Some(v);
    }
    if Truthy(a.subscribersRemoved) {
      var v :- PersonListArg(a.subscribersRemoved, "subscribers_removed");
      sRemoved := Some(v);
    }
    if Truthy(a.subscribersRerequested) {
      var v :- PersonListArg(a.subscribersRerequested, "subscribers_rerequested");
      sRerequested := Some(v);
    }
    if Truthy(a.participantsAdded) {
      var v :- ParticipantListArg(a.participantsAdded, "participants_added");
      pAdded := Some(v);
    }
    if Truthy(a.participantsRemoved) {
      var v :- ParticipantListArg(a.participantsRemoved, "participants_removed");
      pRemoved := Some(v);
    }
    return Success(PeopleAttrs(sAdded, sRemoved, sRerequested, pAdded, pRemoved));
  }

  // ------------------------------------------- field_updates, due, duration

  datatype DueAttrs = DueAttrs(fieldUpdates: Option<Value>, dueDate: Option<Value>, due: Option<Value>, duration: Option<Value>)

  /** The `duration` block as written: it tests `due`, not `duration`, for
      being an int, and then wants `due` truthy. */
  predicate DurationAccepted(a: TaskCommentArgs) {
    Truthy(a.duration) ==> IsInt(a.due) && Truthy(a.due)
  }

  predicate DueAccepted(a: TaskCommentArgs) {
    && (Truthy(a.fieldUpdates) ==> FieldItemsAccepted(a.fieldUpdates))
    && DateOrAbsent(a.dueDate)
    && DateOrAbsent(a.due)
    && DurationAccepted(a)
  }

  /** `field_updates`, `due_date` (date format), `due` (date-time format) and
      `duration`.  As written, no truthy `duration` gets through: a truthy
      `due` was already required to be a datetime, which is not an int. */
  method CommentDue(rt: Runtime, a: TaskCommentArgs) returns (r: Result<DueAttrs, Error>)
    ensures r.Success? <==> DueAccepted(a)
    ensures Truthy(a.duration) ==> r.Failure?
    ensures ((Truthy(a.fieldUpdates) ==> FieldItemsAccepted(a.fieldUpdates)) && DateOrAbsent(a.dueDate)
             && Truthy(a.due) && a.due.DateTime? && Truthy(a.duration)) ==> r == Failure(TypeError(DurationTypeMessage))
    ensures r.Success? ==>
      r.value.fieldUpdates == Stored(a.fieldUpdates, FieldListArg(a.fieldUpdates, "field_update in field_updates"))
    ensures r.Success? ==> r.value.dueDate == Stamp(rt.formatDate, a.dueDate)
    ensures r.Success? ==> r.value.due == Stamp(rt.formatDateTime, a.due)
    ensures r.Success? ==> r.value.duration == None
  {
    var fieldUpdates, dueDate, due, duration := None, None, None, None;
    if Truthy(a.fieldUpdates) {
      var v :- FieldListArg(a.fieldUpdates, "field_update in field_updates");
      fieldUpdates := Some(v);
    }
    if Truthy(a.dueDate) {
      var v :- DateArg(rt.formatDate, a.dueDate, "due_date");
      dueDate := Some(v);
    }
    if Truthy(a.due) {
      var v :- DateArg(rt.formatDateTime, a.due, "due");
      due := Some(v);
    }
    if Truthy(a.duration) {
      if !IsInt(a.due) {
        return Failure(TypeError(DurationTypeMessage));
      }
      if !Truthy(a.due) {
        return Failure(ValueError(DurationDueMessage));
      }
      duration := Some(a.duration);
    }
    return Success(DueAttrs(fieldUpdates, dueDate, due, duration));
  }

  // ------------------------------------------------------------ scheduling

  datatype ScheduleAttrs = ScheduleAttrs(
    scheduledDate: Option<Value>, cancelSchedule: Option<Value>, scheduledDatetimeUtc: Option<Value>)

  /** At most one of the scheduling attributes is set. */
  predicate AtMostOneSchedule(s: ScheduleAttrs) {
    && (s.scheduledDate.Some? ==> s.cancelSchedule.None? && s.scheduledDatetimeUtc.None?)
    && (s.cancelSchedule.Some? ==> s.scheduledDatetimeUtc.None?)
  }

  predicate ScheduleAccepted(a: TaskCommentArgs) {
    && DateOrAbsent(a.scheduledDate)
    && (Truthy(a.cancelSchedule) ==> a.cancelSchedule.Bool?)
    && DateOrAbsent(a.scheduledDatetimeUtc)
  }

  /** `scheduled_date`, `cancel_schedule`, `scheduled_datetime_utc`: each
      block sets its attribute and deletes the other two, so at most one
      survives and the last truthy argument wins. */
  method CommentSchedule(rt: Runtime, a: TaskCommentArgs) returns (r: Result<ScheduleAttrs, Error>)
    ensures r.Success? <==> ScheduleAccepted(a)
    ensures r.Success? ==> AtMostOneSchedule(r.value)
    ensures r.Success? ==> r.value.scheduledDatetimeUtc == Stamp(rt.formatDateTime, a.scheduledDatetimeUtc)
    ensures r.Success? ==>
      r.value.cancelSchedule ==
        (if Truthy(a.scheduledDatetimeUtc) then None else IfGiven(a.cancelSchedule, a.cancelSchedule))
    ensures r.Success? ==>
      r.value.scheduledDate ==
        (if Truthy(a.scheduledDatetimeUtc) || Truthy(a.cancelSchedule) then None else Stamp(rt.formatDate, a.scheduledDate))
  {
    var date, cancel, utc := None, None, None;
    if Truthy(a.scheduledDate) {
      var v :- DateArg(rt.formatDate, a.scheduledDate, "scheduled_date");
      date, cancel, utc := Some(v), None, None;
    }
    if Truthy(a.cancelSchedule) {
      if !a.cancelSchedule.Bool? {
        return Failure(TypeError(CancelScheduleMessage));
      }
      date, cancel, utc := None, Some(a.cancelSchedule), None;
    }
    if Truthy(a.scheduledDatetimeUtc) {
      var v :- DateArg(rt.formatDateTime, a.scheduledDatetimeUtc, "scheduled_datetime_utc");
      date, cancel, utc := None, None, Some(v);
    }
    return Success(ScheduleAttrs(date, cancel, utc));
  }

  // ------------------------------------------- list ids ... spent_minutes

  datatype TailAttrs = TailAttrs(
    addedListIds: Option<Value>, removedListIds: Option<Value>, approvalSteps: Option<Value>,
    channel: Option<Value>, spentMinutes: Option<Value>)

  /** The checks of the last group that come before the `due` / `due_date`
      exclusion. */
  predicate ListIdsAccepted(a: TaskCommentArgs) {
    && IntListOrAbsent(a.addedListIds)
    && IntListOrAbsent(a.removedListIds)
    && IntListOrAbsent(a.approvalSteps)
  }

  predicate TailAccepted(a: TaskCommentArgs) {
    && ListIdsAccepted(a)
    && !(Truthy(a.due) && Truthy(a.dueDate))
    && (Truthy(a.channel) ==> a.channel.Str? && a.channel.s in Channels)
    && (Truthy(a.spentMinutes) ==> IsInt(a.spentMinutes))
  }

  /** `added_list_ids`, `removed_list_ids`, `approval_steps`, the exclusion
      of `due` and `due_date`, `channel` and `spent_minutes`. */
  method CommentTail(a: TaskCommentArgs) returns (r: Result<TailAttrs, Error>)
    ensures r.Success? <==> TailAccepted(a)
    ensures ListIdsAccepted(a) && Truthy(a.due) && Truthy(a.dueDate) ==> r == Failure(DueConflict)
    ensures r.Success? ==> r.value.addedListIds == IfGiven(a.addedListIds, a.addedListIds)
    ensures r.Success? ==> r.value.removedListIds == IfGiven(a.removedListIds, a.removedListIds)
    ensures r.Success? ==> r.value.approvalSteps == IfGiven(a.approvalSteps, a.approvalSteps)
    ensures r.Success? ==> r.value.channel == IfGiven(a.channel, ChannelOf(a.channel))
    ensures r.Success? ==> r.value.spentMinutes == IfGiven(a.spentMinutes, a.spentMinutes)
  {
    var added, removed, steps, channel, spent := None, None, None, None, None;
    if Truthy(a.addedListIds) {
      if !IsIntList(a.addedListIds) {
        return Failure(TypeError("added_list_ids must be a list of int"));
      }
      added := Some(a.addedListIds);
    }
    if Truthy(a.removedListIds) {
      if !IsIntList(a.removedListIds) {
        return Failure(TypeError("removed_list_ids must be a list of int"));
      }
      removed := Some(a.removedListIds);
    }
    if Truthy(a.approvalSteps) {
      if !IsIntList(a.approvalSteps) {
        return Failure(TypeError("approval_steps must be a list of int"));
      }
      steps := Some(a.approvalSteps);
    }
    if Truthy(a.due) && Truthy(a.dueDate) {
      return Failure(DueConflict);
    }
    if Truthy(a.channel) {
      var v :- ChannelArg(a.channel);
      channel := Some(v);
    }
    if Truthy(a.spentMinutes) {
      if !IsInt(a.spentMinutes) {
        return Failure(TypeError(SpentMinutesMessage));
      }
      spent := Some(a.spentMinutes);
    }
    return Success(TailAttrs(added, removed, steps, channel, spent));
  }

  // ------------------------------------------------------------ the request

  /** The attributes of a constructed `TaskCommentRequest`. */
  datatype CommentAttrs = CommentAttrs(
    head: HeadAttrs, approvals: ApprovalAttrs, people: PeopleAttrs,
    due: DueAttrs, schedule: ScheduleAttrs, tail: TailAttrs)

  /** The arguments `TaskCommentRequest(...)` accepts without raising. */
  predicate CommentAccepted(a: TaskCommentArgs) {
    && HeadAccepted(a) && ApprovalsAccepted(a) && PeopleAccepted(a)
    && DueAccepted(a) && ScheduleAccepted(a) && TailAccepted(a)
  }

  /** Every check before the `duration` block passes. */
  predicate AcceptedBeforeDuration(a: TaskCommentArgs) {
    && HeadAccepted(a) && ApprovalsAccepted(a) && PeopleAccepted(a)
    && (Truthy(a.fieldUpdates) ==> FieldItemsAccepted(a.fieldUpdates))
    && DateOrAbsent(a.dueDate) && DateOrAbsent(a.due)
  }

  /** `TaskCommentRequest(...)`. */
  method NewTaskCommentRequest(rt: Runtime, a: TaskCommentArgs) returns (r: Result<CommentAttrs, Error>)
    ensures r.Success? <==> CommentAccepted(a)
    // as written, a comment never carries a duration
    ensures Truthy(a.duration) ==> r.Failure?
    ensures AcceptedBeforeDuration(a) && Truthy(a.due) && Truthy(a.duration) ==>
      r == Failure(TypeError(DurationTypeMessage))
    // `due` and `due_date` exclude each other
    ensures Truthy(a.due) && Truthy(a.dueDate) ==> r.Failure?
    ensures (AcceptedBeforeDuration(a) && !Truthy(a.duration) && ScheduleAccepted(a) && ListIdsAccepted(a)
             && Truthy(a.due) && Truthy(a.dueDate)) ==> r == Failure(DueConflict)
    // at most one scheduling attribute, the last truthy argument winning
    ensures r.Success? ==> AtMostOneSchedule(r.value.schedule)
    ensures r.Success? ==> (r.value.schedule.scheduledDatetimeUtc.Some? <==> Truthy(a.scheduledDatetimeUtc))
    ensures r.Success? ==>
      (r.value.schedule.cancelSchedule.Some? <==> Truthy(a.cancelSchedule) && !Truthy(a.scheduledDatetimeUtc))
    ensures r.Success? ==>
      (r.value.schedule.scheduledDate.Some? <==>
         Truthy(a.scheduledDate) && !Truthy(a.cancelSchedule) && !Truthy(a.scheduledDatetimeUtc))
    ensures r.Success? ==> r.value.head.reassignTo == IfGiven(a.reassignTo, CoercePerson(a.reassignTo))
    ensures r.Success? ==> r.value.due.due == Stamp(rt.formatDateTime, a.due)
    ensures r.Success? ==> r.value.due.dueDate == Stamp(rt.formatDate, a.dueDate)
    ensures r.Success? ==> r.value.tail.channel == IfGiven(a.channel, ChannelOf(a.channel))
  {
    var head :- CommentHead(a);
    var approvals :- CommentApprovals(a);
    var people :- CommentPeople(a);
    var due :- CommentDue(rt, a);
    var schedule :- CommentSchedule(rt, a);
    var tail :- CommentTail(a);
    return Success(CommentAttrs(head, approvals, people, due, schedule, tail));
  }
}

=== FILE: decimal.dfy ===
/** Decimal rendering of integers (Python's `str(n)` / `'{}'.format(n)`) and
    its partner, the parse performed by Python's `int(s)` on a string, for the
    ASCII subset of its syntax. */
module Decimal {
  import opened Wrappers

  predicate IsDigit(c: char) {
    '0' <= c <= '9'
  }

  function DigitChar(d: nat): (c: char)
    requires d < 10
    ensures IsDigit(c)
  {
    "0123456789"[d]
  }

  function DigitValue(c: char): (d: nat)
    requires IsDigit(c)
    ensures d < 10
  {
    c as int - '0' as int
  }

  predicate AllDigits(s: string) {
    forall i :: 0 <= i < |s| ==> IsDigit(s[i])
  }

  /** Shortest decimal rendering of a natural number. */
  function NatToString(n: nat): (s: string)
    ensures |s| > 0 && AllDigits(s)
  {
    if n < 10 then [DigitChar(n)] else NatToString(n / 10) + [DigitChar(n % 10)]
  }

  /** `str(i)` for a Python int: a minus sign for negatives, then the digits. */
  function IntToString(i: int): (s: string)
    ensures |s| > 0 && IsDigit(s[|s| - 1])
    ensures i < 0 <==> s[0] == '-'
    ensures 0 <= i ==> AllDigits(s)
  {
    if i < 0 then "-" + NatToString(-i) else NatToString(i)
  }

  /** Characters Python's `int()` strips from both ends: the six ASCII
      whitespace characters space, tab, line feed, vertical tab, form feed
      and carriage return, and every non-ASCII character `str.isspace()`
      accepts. The ASCII separators U+001C to U+001F count as whitespace
      for `str.isspace()` but not for `int()`. */
  predicate IsSpace(c: char) {
    || c == ' ' || c == '\t' || c == '\n' || c == '\r' || c == '\U{0B}' || c == '\U{0C}'
    || c == '\U{85}' || c == '\U{A0}' || c == '\U{1680}'
    || ('\U{2000}' <= c <= '\U{200A}') || c == '\U{2028}' || c == '\U{2029}'
    || c == '\U{202F}' || c == '\U{205F}' || c == '\U{3000}'
  }

  function TrimLeft(s: string): (t: string)
    ensures |t| <= |s|
    ensures |t| > 0 ==> !IsSpace(t[0])
  {
    if |s| > 0 && IsSpace(s[0]) then TrimLeft(s[1..]) else s
  }

  function TrimRight(s: string): (t: string)
    ensures |t| <= |s|
    ensures |t| > 0 ==> !IsSpace(t[|t| - 1])
  {
    if |s| > 0 && IsSpace(s[|s| - 1]) then TrimRight(s[..|s| - 1]) else s
  }

  function Strip(s: string): string {
    TrimRight(TrimLeft(s))
  }

  /** The digit part of a base-10 Python integer literal: digits, with single
      underscores allowed between two digits. */
  predicate WellGrouped(s: string) {
    && |s| > 0
    && IsDigit(s[0])
    && IsDigit(s[|s| - 1])
    && (forall i :: 0 <= i < |s| ==> IsDigit(s[i]) || s[i] == '_')
    && (forall i :: 0 <= i < |s| - 1 ==> !(s[i] == '_' && s[i + 1] == '_'))
  }

  /** Value of a string of digits and underscores, underscores ignored. */
  function GroupedValue(s: string): nat
    requires forall i :: 0 <= i < |s| ==> IsDigit(s[i]) || s[i] == '_'
  {
    if |s| == 0 then 0
    else if s[|s| - 1] == '_' then GroupedValue(s[..|s| - 1])
    else GroupedValue(s[..|s| - 1]) * 10 + DigitValue(s[|s| - 1])
  }

  /** Python's `int(s)` for a string: `Some(n)` when it returns n, `None`
      when it raises ValueError. */
  function ParseInt(s: string): (r: Option<int>)
    ensures r.Some? ==> |Strip(s)| > 0
    // what is accepted: an optional sign, then digits and underscores ending in a digit
    ensures r.Some? ==> IsDigit(Strip(s)[0]) || Strip(s)[0] == '-' || Strip(s)[0] == '+'
    ensures r.Some? ==> forall i :: 0 < i < |Strip(s)| ==> IsDigit(Strip(s)[i]) || Strip(s)[i] == '_'
    ensures r.Some? ==> IsDigit(Strip(s)[|Strip(s)| - 1])
    ensures r.Some? && !IsDigit(Strip(s)[0]) ==> |Strip(s)| > 1 && IsDigit(Strip(s)[1])
    ensures r.Some? ==> forall i :: 0 <= i < |Strip(s)| - 1 ==> !(Strip(s)[i] == '_' && Strip(s)[i + 1] == '_')
    ensures r.Some? && r.value < 0 ==> Strip(s)[0] == '-'
  {
    var t := Strip(s);
    if |t| > 0 && (t[0] == '-' || t[0] == '+') then
      var body := t[1..];
      if WellGrouped(body) then
        var magnitude: int := GroupedValue(body);
        Some(if t[0] == '-' then -magnitude else magnitude)
      else None
    else if WellGrouped(t) then Some(GroupedValue(t))
    else None
  }

  lemma {:induction false} NatToStringValue(n: nat)
    ensures GroupedValue(NatToString(n)) == n
  {
    if n >= 10 {
      var s := NatToString(n);
      var p := NatToString(n / 10);
      assert s[..|s| - 1] == p;
      NatToStringValue(n / 10);
    }
  }

  lemma StripUnspaced(s: string)
    requires |s| > 0 && !IsSpace(s[0]) && !IsSpace(s[|s| - 1])
    ensures Strip(s) == s
  {
  }

  lemma NatToStringGrouped(n: nat)
    ensures WellGrouped(NatToString(n))
  {
  }

  /** Neither a digit nor a minus sign is whitespace. */
  lemma DigitOrMinusNotSpace(c: char)
    requires IsDigit(c) || c == '-'
    ensures !IsSpace(c)
  {
  }

  /** A rendered integer has nothing for `int()` to strip. */
  lemma StripIntToString(i: int)
    ensures Strip(IntToString(i)) == IntToString(i)
  {
    var s := IntToString(i);
    DigitOrMinusNotSpace(s[0]);
    DigitOrMinusNotSpace(s[|s| - 1]);
    StripUnspaced(s);
  }

  /** `int()` of an unstripped, signed, well-grouped literal. */
  lemma ParseNegative(s: string)
    requires Strip(s) == s && |s| > 1 && s[0] == '-' && WellGrouped(s[1..])
    ensures ParseInt(s) == Some(-(GroupedValue(s[1..]) as int))
  {
  }

  /** `int()` of an unstripped, unsigned, well-grouped literal. */
  lemma ParseUnsigned(s: string)
    requires Strip(s) == s && WellGrouped(s)
    ensures ParseInt(s) == Some(GroupedValue(s))
  {
    assert s[0] != '-' && s[0] != '+';
  }

  /** Rendering then parsing gives the integer back: `int(str(i)) == i`. */
  lemma {:induction false} ParseIntOfIntToString(i: int)
    ensures ParseInt(IntToString(i)) == Some(i)
  {
    var s := IntToString(i);
    StripIntToString(i);
    if i < 0 {
      assert s[1..] == NatToString(-i);
      NatToStringGrouped(-i);
      NatToStringValue(-i);
      ParseNegative(s);
    } else {
      NatToStringGrouped(i);
      NatToStringValue(i);
      ParseUnsigned(s);
    }
  }

  /** Distinct integers render as distinct strings. */
  lemma IntToStringInjective(i: int, j: int)
    requires IntToString(i) == IntToString(j)
    ensures i == j
  {
    ParseIntOfIntToString(i);
    ParseIntOfIntToString(j);
  }
}

=== FILE: filters.dfy ===
/** The filter encoding of `FormRegisterRequest` in `pyrus/models/requests.py`:
    each `FormRegisterFilter` becomes one `fld<field id>` attribute of the
    register request, with a value that depends on its operator. */
module Filters {
  import opened Wrappers
  import opened Values
  import Decimal

  /** Attributes set on the request object, by name. */
  type Attrs = map<string, Value>

  /** `a` and `b` agree on attribute `k`: both lack it, or both hold the same value. */
  predicate Keeps(a: Attrs, b: Attrs, k: string) {
    (k in a <==> k in b) && (k in a ==> a[k] == b[k])
  }

  /** The name of a filter attribute. */
  predicate IsFilterName(k: string) {
    |k| >= 3 && k[..3] == "fld"
  }

  /** `'fld{}'.format(filter.field_id)`. */
  function FilterKey(rt: Runtime, f: Value): (r: Result<string, Error>)
    ensures r.Success? <==> GetAttr(f, "field_id").Success?
    ensures r.Success? ==> IsFilterName(r.value)
    ensures r.Success? && GetAttr(f, "field_id").value.Int? ==>
      r.value == "fld" + Decimal.IntToString(GetAttr(f, "field_id").value.i)
  {
    var id :- GetAttr(f, "field_id");
    var key := "fld" + Display(rt, id);
    assert key[..3] == "fld";
    Success(key)
  }

  /** `",".join(items)`: every item must be a string. */
  function Join(sep: string, items: seq<Value>): (r: Result<string, Error>)
    ensures r.Success? <==> forall i :: 0 <= i < |items| ==> items[i].Str?
    ensures |items| == 0 ==> r == Success("")
    ensures |items| == 1 && items[0].Str? ==> r == Success(items[0].s)
  {
    if |items| == 0 then Success("")
    else if !items[0].Str? then Failure(TypeError("sequence item: expected str instance"))
    else if |items| == 1 then Success(items[0].s)
    else
      var rest :- Join(sep, items[1..]);
      Success(items[0].s + sep + rest)
  }

  /** Joining one more string appends the separator and that string: with
      the one-item case this determines the joined text of every list. */
  lemma {:induction false} JoinSnoc(sep: string, xs: seq<Value>, y: string)
    requires |xs| > 0 && forall i :: 0 <= i < |xs| ==> xs[i].Str?
    ensures Join(sep, xs + [Str(y)]) == Success(Join(sep, xs).value + sep + y)
    decreases |xs|
  {
    var ys := xs + [Str(y)];
    if |xs| == 1 {
      assert ys[1..] == [Str(y)];
    } else {
      assert ys[1..] == xs[1..] + [Str(y)];
      assert forall i :: 0 <= i < |xs| - 1 ==> xs[1..][i] == xs[i + 1];
      assert ys[0] == xs[0];
      JoinSnoc(sep, xs[1..], y);
      var rest := Join(sep, xs[1..]).value;
      assert Join(sep, xs) == Success(xs[0].s + sep + rest);
      assert Join(sep, ys[1..]) == Success(rest + sep + y);
      assert Join(sep, ys) == Success(xs[0].s + sep + (rest + sep + y));
      assert xs[0].s + sep + (rest + sep + y) == (xs[0].s + sep + rest) + sep + y;
    }
  }

  /** The attribute one filter sets: `fld<field_id>` with a value that
      depends on the operator; `None` for an operator the code does not
      recognise (nothing is set). */
  datatype Setting = Setting(key: string, val: Value)

  /** The operators the code recognises. */
  const Operators: set<string> := {"equals", "greater_than", "less_than", "range", "is_in"}

  /** The value stored for a recognised operator, computed from the filter's
      `values` once the attribute name is known. */
  function OperatorValue(rt: Runtime, op: string, values: Value): Result<Value, Error>
    requires op in Operators
  {
    if op == "equals" then Success(values)
    else if op == "greater_than" then Success(Str("gt" + Display(rt, values)))
    else if op == "less_than" then Success(Str("lt" + Display(rt, values)))
    else if op == "range" then
      var bounds :- Iterate(values);
      if |bounds| == 0 then Failure(IndexError("Replacement index 0 out of range for positional args tuple"))
      else if |bounds| == 1 then Failure(IndexError("Replacement index 1 out of range for positional args tuple"))
      else Success(Str("gt" + Display(rt, bounds[0]) + ",lt" + Display(rt, bounds[1])))
    else
      var items :- Iterate(values);
      var joined :- Join(",", items);
      Success(Str(joined))
  }

  function FilterAttribute(rt: Runtime, f: Value): (r: Result<Option<Setting>, Error>)
    ensures r.Success? && r.value.Some? ==> IsFilterName(r.value.value.key)
  {
    var op :- GetAttr(f, "operator");
    if !(op.Str? && op.s in Operators) then Success(None)
    else
      var key :- FilterKey(rt, f);
      var values :- GetAttr(f, "values");
      var val :- OperatorValue(rt, op.s, values);
      Success(Some(Setting(key, val)))
  }

  /** A FormRegisterFilter entity. */
  function Filter(fieldId: Value, operator: string, values: Value): Value {
    Object("FormRegisterFilter", [Member("field_id", fieldId), Member("operator", Str(operator)), Member("values", values)])
  }

  /** The three attributes of a `Filter` read back. */
  lemma FilterFields(fieldId: Value, operator: string, values: Value)
    ensures GetAttr(Filter(fieldId, operator, values), "field_id") == Success(fieldId)
    ensures GetAttr(Filter(fieldId, operator, values), "operator") == Success(Str(operator))
    ensures GetAttr(Filter(fieldId, operator, values), "values") == Success(values)
  {
    var ms := Filter(fieldId, operator, values).attrs;
    var rest := [Member("operator", Str(operator)), Member("values", values)];
    var last := [Member("values", values)];
    assert ms[1..] == rest && rest[1..] == last && last[1..] == [];
    assert "field_id" != "operator" && "field_id" != "values" && "operator" != "values" by {
      assert "field_id"[0] == 'f' && "operator"[0] == 'o' && "values"[0] == 'v';
    }
    assert Find(last, "values") == Some(values);
    assert Find(rest, "values") == Find(last, "values");
    assert Find(ms, "values") == Find(rest, "values");
    assert Find(rest, "operator") == Some(Str(operator));
    assert Find(ms, "operator") == Find(rest, "operator");
  }

  /** A filter on an integer field with a recognised operator sets
      `fld<id>` to the operator's value, or raises what computing it raises. */
  lemma FilterOnField(rt: Runtime, n: int, op: string, v: Value)
    requires op in Operators
    ensures OperatorValue(rt, op, v).Success? ==>
      FilterAttribute(rt, Filter(Int(n), op, v)) == Success(Some(Setting("fld" + Decimal.IntToString(n), OperatorValue(rt, op, v).value)))
    ensures OperatorValue(rt, op, v).Failure? ==>
      FilterAttribute(rt, Filter(Int(n), op, v)) == Failure(OperatorValue(rt, op, v).error)
  {
    FilterFields(Int(n), op, v);
  }

  /** Filters on different integer fields set different attributes. */
  lemma DistinctFieldsDistinctKeys(i: int, j: int)
    requires i != j
    ensures "fld" + Decimal.IntToString(i) != "fld" + Decimal.IntToString(j)
  {
    var a, b := "fld" + Decimal.IntToString(i), "fld" + Decimal.IntToString(j);
    assert a[3..] == Decimal.IntToString(i) && b[3..] == Decimal.IntToString(j);
    if a == b {
      Decimal.IntToStringInjective(i, j);
    }
  }

  /** `equals` stores the filter's values unchanged under `fld<id>`. */
  lemma FilterEquals(rt: Runtime, n: int, v: Value)
    ensures FilterAttribute(rt, Filter(Int(n), "equals", v))
      == Success(Some(Setting("fld" + Decimal.IntToString(n), v)))
  {
    FilterOnField(rt, n, "equals", v);
  }

  /** The comparison operators: `greater_than` prefixes the rendered value
      with `gt`, `less_than` with `lt`. */
  lemma FilterComparison(rt: Runtime, n: int, op: string, v: Value)
    requires op == "greater_than" || op == "less_than"
    ensures FilterAttribute(rt, Filter(Int(n), op, v))
      == Success(Some(Setting("fld" + Decimal.IntToString(n), Str((if op == "greater_than" then "gt" else "lt") + Display(rt, v)))))
  {
    FilterOnField(rt, n, op, v);
  }

  /** `range` renders its first two bounds as `gt<a>,lt<b>`. */
  lemma FilterRange(rt: Runtime, n: int, a: Value, b: Value, rest: seq<Value>)
    ensures FilterAttribute(rt, Filter(Int(n), "range", List([a, b] + rest)))
      == Success(Some(Setting("fld" + Decimal.IntToString(n), Str("gt" + Display(rt, a) + ",lt" + Display(rt, b)))))
  {
    FilterOnField(rt, n, "range", List([a, b] + rest));
  }

  /** `range` with fewer than two bounds raises IndexError from `format`. */
  lemma FilterRangeTooShort(rt: Runtime, n: int, bounds: seq<Value>)
    requires |bounds| < 2
    ensures FilterAttribute(rt, Filter(Int(n), "range", List(bounds))).Failure?
    ensures FilterAttribute(rt, Filter(Int(n), "range", List(bounds))).error.IndexError?
  {
    FilterOnField(rt, n, "range", List(bounds));
  }

  /** `is_in` stores any list of strings joined with commas. */
  lemma FilterIsIn(rt: Runtime, n: int, items: seq<Value>)
    requires forall i :: 0 <= i < |items| ==> items[i].Str?
    ensures Join(",", items).Success?
    ensures FilterAttribute(rt, Filter(Int(n), "is_in", List(items)))
      == Success(Some(Setting("fld" + Decimal.IntToString(n), Str(Join(",", items).value))))
  {
    assert Iterate(List(items)) == Success(items);
    assert OperatorValue(rt, "is_in", List(items)) == Success(Str(Join(",", items).value));
    FilterOnField(rt, n, "is_in", List(items));
  }

  /** In particular two strings are joined around one comma. */
  lemma FilterIsInPair(rt: Runtime, n: int, x: string, y: string)
    ensures FilterAttribute(rt, Filter(Int(n), "is_in", List([Str(x), Str(y)])))
      == Success(Some(Setting("fld" + Decimal.IntToString(n), Str(x + "," + y))))
  {
    FilterIsIn(rt, n, [Str(x), Str(y)]);
    JoinSnoc(",", [Str(x)], y);
    assert [Str(x)] + [Str(y)] == [Str(x), Str(y)];
  }

  /** `is_in` raises TypeError when a value is not a string. */
  lemma FilterIsInRejects(rt: Runtime, n: int, items: seq<Value>, i: int)
    requires 0 <= i < |items| && !items[i].Str?
    ensures FilterAttribute(rt, Filter(Int(n), "is_in", List(items))).Failure?
  {
    FilterOnField(rt, n, "is_in", List(items));
  }

  /** Any other operator sets nothing. */
  lemma FilterUnknownOperator(rt: Runtime, fieldId: Value, op: string, v: Value)
    requires op !in Operators
    ensures FilterAttribute(rt, Filter(fieldId, op, v)) == Success(None)
  {
    FilterFields(fieldId, op, v);
  }

  /** Filter `f` sets attribute `k`. */
  predicate SetsKey(rt: Runtime, f: Value, k: string) {
    var a := FilterAttribute(rt, f);
    a.Success? && a.value.Some? && a.value.value.key == k
  }

  /** The filter loop: each item must be a FormRegisterFilter, checked just
      before it is applied; a later filter on the same attribute overwrites an
      earlier one.  Only `fld...` attributes are added. */
  function FilterSeq(rt: Runtime, m: Attrs, fs: seq<Value>): (r: Result<Attrs, Error>)
    ensures r.Success? ==> forall k :: k in r.value ==> k in m || IsFilterName(k)
    ensures r.Success? <==> forall i :: 0 <= i < |fs| ==>
      IsInstance(fs[i], "FormRegisterFilter") && FilterAttribute(rt, fs[i]).Success?
    decreases |fs|
  {
    if |fs| == 0 then Success(m)
    else if !IsInstance(fs[0], "FormRegisterFilter") then
      Failure(TypeError("filters must be a list of entities.FormRegisterFilter"))
    else
      var attr :- FilterAttribute(rt, fs[0]);
      var m' := if attr.Some? then m[attr.value.key := attr.value.val] else m;
      assert forall i :: 0 <= i < |fs| - 1 ==> fs[1..][i] == fs[i + 1];
      FilterSeq(rt, m', fs[1..])
  }

  /** A key no filter sets keeps its value through the loop. */
  lemma {:induction false} LaterFiltersKeep(rt: Runtime, m: Attrs, fs: seq<Value>, k: string)
    requires FilterSeq(rt, m, fs).Success?
    requires forall j :: 0 <= j < |fs| ==> !SetsKey(rt, fs[j], k)
    ensures Keeps(m, FilterSeq(rt, m, fs).value, k)
    decreases |fs|
  {
    if |fs| > 0 {
      var attr0 := FilterAttribute(rt, fs[0]).value;
      var m' := if attr0.Some? then m[attr0.value.key := attr0.value.val] else m;
      assert FilterSeq(rt, m, fs) == FilterSeq(rt, m', fs[1..]);
      assert !SetsKey(rt, fs[0], k);
      assert forall j :: 0 <= j < |fs| - 1 ==> fs[1..][j] == fs[j + 1];
      LaterFiltersKeep(rt, m', fs[1..], k);
    }
  }

  /** Attribute map `m` holds setting `s`. */
  predicate Holds(m: Attrs, s: Setting) {
    s.key in m && m[s.key] == s.val
  }

  /** The attribute a filter sets holds that filter's value unless a later
      filter sets the same attribute. */
  lemma {:induction false} LastFilterWins(rt: Runtime, m: Attrs, fs: seq<Value>, i: int)
    requires FilterSeq(rt, m, fs).Success?
    requires 0 <= i < |fs| && FilterAttribute(rt, fs[i]).Success? && FilterAttribute(rt, fs[i]).value.Some?
    requires forall j :: i < j < |fs| ==> !SetsKey(rt, fs[j], FilterAttribute(rt, fs[i]).value.value.key)
    ensures Holds(FilterSeq(rt, m, fs).value, FilterAttribute(rt, fs[i]).value.value)
    decreases |fs|
  {
    var attr0 := FilterAttribute(rt, fs[0]).value;
    var m' := if attr0.Some? then m[attr0.value.key := attr0.value.val] else m;
    assert FilterSeq(rt, m, fs) == FilterSeq(rt, m', fs[1..]);
    assert forall j :: 0 <= j < |fs| - 1 ==> fs[1..][j] == fs[j + 1];
    if i == 0 {
      LaterFiltersKeep(rt, m', fs[1..], attr0.value.key);
    } else {
      LastFilterWins(rt, m', fs[1..], i - 1);
    }
  }

  /** The attributes the filter loop sets.  The loop writes them straight
      onto the request; computing them apart and then adding them gives the
      same object, since the loop writes nothing else and a raise discards the
      half-built object either way. */
  function FiltersArg(rt: Runtime, filters: Value): (r: Result<Attrs, Error>)
    ensures r.Success? ==> forall k :: k in r.value ==> IsFilterName(k)
    ensures r.Success? <==> filters.List? && FilterSeq(rt, map[], filters.items).Success?
  {
    if !filters.List? then Failure(TypeError("filters must be a list of entities.FormRegisterFilter"))
    else FilterSeq(rt, map[], filters.items)
  }
}

=== FILE: register_request.dfy ===
/** `FormRegisterRequest` (pyrus/models/requests.py, lines 27-101): the
    query of a form register.  Like the other constructors it is a run of
    `if arg:` blocks, grouped here in source order; the filter loop adds one
    `fld<field id>` attribute per filter (see module Filters). */
module RegisterRequests {
  import opened Wrappers
  import opened Values
  import opened RequestFields
  import opened Filters

  datatype FormRegisterArgs = FormRegisterArgs(
    steps: Value, includeArchived: Value, filters: Value, modifiedBefore: Value, modifiedAfter: Value,
    fieldIds: Value, format: Value, delimiter: Value, simpleFormat: Value, encoding: Value,
    closedBefore: Value, closedAfter: Value, createdBefore: Value, createdAfter: Value)

  const StepsMessage := "steps must be a list of int"
  const IncludeArchivedMessage := "include_archived must be bool"
  const FieldIdsMessage := "field_ids must be a list of int"
  const FormatTypeMessage := "format must be an instance of str"
  const FormatValueMessage := "format must \"json\" or \"csv\""
  const DelimiterMessage := "delimiter must be a string"
  const SimpleFormatMessage := "simple_format must be a bool"
  const EncodingMessage := "encoding must be a string"

  /** The response formats a register request can ask for. */
  const Formats: set<string> := {"json", "csv"}

  // ------------------------------------------------ steps, include_archived

  datatype RegisterHead = RegisterHead(steps: Option<Value>, includeArchived: Option<Value>)

  predicate HeadAccepted(a: FormRegisterArgs) {
    && IntListOrAbsent(a.steps)
    && (Truthy(a.includeArchived) ==> a.includeArchived.Bool?)
  }

  /** `steps` and `include_archived`. */
  method RegisterHeadBlocks(a: FormRegisterArgs) returns (r: Result<RegisterHead, Error>)
    ensures r.Success? <==> HeadAccepted(a)
    ensures Truthy(a.steps) && !IsIntList(a.steps) ==> r == Failure(TypeError(StepsMessage))
    ensures IntListOrAbsent(a.steps) && Truthy(a.includeArchived) && !a.includeArchived.Bool? ==>
      r == Failure(TypeError(IncludeArchivedMessage))
    ensures r.Success? ==> r.value.steps == IfGiven(a.steps, a.steps)
    ensures r.Success? ==> r.value.includeArchived == IfGiven(a.includeArchived, a.includeArchived)
  {
    var steps, archived := None, None;
    if Truthy(a.steps) {
      if !IsIntList(a.steps) {
        return Failure(TypeError(StepsMessage));
      }
      steps := Some(a.steps);
    }
    if Truthy(a.includeArchived) {
      if !a.includeArchived.Bool? {
        return Failure(TypeError(IncludeArchivedMessage));
      }
      archived := Some(a.includeArchived);
    }
    return Success(RegisterHead(steps, archived));
  }

  // ------------------------------------------------------------ date bounds

  datatype RegisterDates = RegisterDates(
    modifiedBefore: Option<Value>, modifiedAfter: Option<Value>,
    closedBefore: Option<Value>, closedAfter: Option<Value>,
    createdBefore: Option<Value>, createdAfter: Option<Value>)

  predicate DatesAccepted(a: FormRegisterArgs) {
    && DateOrAbsent(a.modifiedBefore) && DateOrAbsent(a.modifiedAfter)
    && DateOrAbsent(a.closedBefore) && DateOrAbsent(a.closedAfter)
    && DateOrAbsent(a.createdBefore) && DateOrAbsent(a.createdAfter)
  }

  /** The six date bounds, each rendered by `_date_to_str` in the date-time
      format. */
  method RegisterDateBlocks(rt: Runtime, a: FormRegisterArgs) returns (r: Result<RegisterDates, Error>)
    ensures r.Success? <==> DatesAccepted(a)
    ensures r.Success? ==> r.value.modifiedBefore == Stamp(rt.formatDateTime, a.modifiedBefore)
    ensures r.Success? ==> r.value.modifiedAfter == Stamp(rt.formatDateTime, a.modifiedAfter)
    ensures r.Success? ==> r.value.closedBefore == Stamp(rt.formatDateTime, a.closedBefore)
    ensures r.Success? ==> r.value.closedAfter == Stamp(rt.formatDateTime, a.closedAfter)
    ensures r.Success? ==> r.value.createdBefore == Stamp(rt.formatDateTime, a.createdBefore)
    ensures r.Success? ==> r.value.createdAfter == Stamp(rt.formatDateTime, a.createdAfter)
  {
    var mBefore, mAfter, clBefore, clAfter, crBefore, crAfter := None, None, None, None, None, None;
    if Truthy(a.modifiedBefore) {
      var v :- DateArg(rt.formatDateTime, a.modifiedBefore, "modified_before");
      mBefore := Some(v);
    }
    if Truthy(a.modifiedAfter) {
      var v :- DateArg(rt.formatDateTime, a.modifiedAfter, "modified_after");
      mAfter := Some(v);
    }
    if Truthy(a.closedBefore) {
      var v :- DateArg(rt.formatDateTime, a.closedBefore, "closed_before");
      clBefore := Some(v);
    }
    if Truthy(a.closedAfter) {
      var v :- DateArg(rt.formatDateTime, a.closedAfter, "closed_after");
      clAfter := Some(v);
    }
    if Truthy(a.createdBefore) {
      var v :- DateArg(rt.formatDateTime, a.createdBefore, "created_before");
      crBefore := Some(v);
    }
    if Truthy(a.createdAfter) {
      var v :- DateArg(rt.formatDateTime, a.createdAfter, "created_after");
      crAfter := Some(v);
    }
    return Success(RegisterDates(mBefore, mAfter, clBefore, clAfter, crBefore, crAfter));
  }

  // ----------------------------------------------------- field_ids ... encoding

  datatype RegisterTail = RegisterTail(
    fieldIds: Option<Value>, format: Option<Value>, delimiter: Option<Value>,
    simpleFormat: Option<Value>, encoding: Option<Value>)

  /** The tail blocks run in order; each of these says that the blocks up to
      the named one have passed. */
  predicate AcceptedThroughFormat(a: FormRegisterArgs) {
    && IntListOrAbsent(a.fieldIds)
    && (Truthy(a.format) ==> a.format.Str? && a.format.s in Formats)
  }

  predicate AcceptedThroughDelimiter(a: FormRegisterArgs) {
    AcceptedThroughFormat(a) && (Truthy(a.delimiter) ==> a.delimiter.Str?)
  }

  predicate AcceptedThroughSimpleFormat(a: FormRegisterArgs) {
    AcceptedThroughDelimiter(a) && (Truthy(a.simpleFormat) ==> a.simpleFormat.Bool?)
  }

  predicate TailAccepted(a: FormRegisterArgs) {
    AcceptedThroughSimpleFormat(a) && (Truthy(a.encoding) ==> a.encoding.Str?)
  }

  /** `field_ids`, `format`, `delimiter`, `simple_format`, `encoding`. */
  method RegisterTailBlocks(a: FormRegisterArgs) returns (r: Result<RegisterTail, Error>)
    ensures r.Success? <==> TailAccepted(a)
    ensures IntListOrAbsent(a.fieldIds) && Truthy(a.format) && !a.format.Str? ==>
      r == Failure(TypeError(FormatTypeMessage))
    ensures IntListOrAbsent(a.fieldIds) && a.format.Str? && a.format.s != "" && a.format.s !in Formats ==>
      r == Failure(TypeError(FormatValueMessage))
    ensures Truthy(a.fieldIds) && !IsIntList(a.fieldIds) ==> r == Failure(TypeError(FieldIdsMessage))
    ensures AcceptedThroughFormat(a) && Truthy(a.delimiter) && !a.delimiter.Str? ==>
      r == Failure(TypeError(DelimiterMessage))
    ensures AcceptedThroughDelimiter(a) && Truthy(a.simpleFormat) && !a.simpleFormat.Bool? ==>
      r == Failure(TypeError(SimpleFormatMessage))
    ensures AcceptedThroughSimpleFormat(a) && Truthy(a.encoding) && !a.encoding.Str? ==>
      r == Failure(TypeError(EncodingMessage))
    ensures r.Success? ==> r.value.fieldIds == IfGiven(a.fieldIds, a.fieldIds)
    ensures r.Success? ==> r.value.format == IfGiven(a.format, a.format)
    ensures r.Success? && r.value.format.Some? ==> r.value.format.value.Str? && r.value.format.value.s in Formats
    ensures r.Success? ==> r.value.delimiter == IfGiven(a.delimiter, a.delimiter)
    ensures r.Success? ==> r.value.simpleFormat == IfGiven(a.simpleFormat, a.simpleFormat)
    ensures r.Success? ==> r.value.encoding == IfGiven(a.encoding, a.encoding)
  {
    var fieldIds, format, delimiter, simple, encoding := None, None, None, None, None;
    if Truthy(a.fieldIds) {
      if !IsIntList(a.fieldIds) {
        return Failure(TypeError(FieldIdsMessage));
      }
      fieldIds := Some(a.fieldIds);
    }
    if Truthy(a.format) {
      if !a.format.Str? {
        return Failure(TypeError(FormatTypeMessage));
      }
      if a.format.s != "json" && a.format.s != "csv" {
        return Failure(TypeError(FormatValueMessage));
      }
      format := Some(a.format);
    }
    if Truthy(a.delimiter) {
      if !a.delimiter.Str? {
        return Failure(TypeError(DelimiterMessage));
      }
      delimiter := Some(a.delimiter);
    }
    if Truthy(a.simpleFormat) {
      if !a.simpleFormat.Bool? {
        return Failure(TypeError(SimpleFormatMessage));
      }
      simple := Some(a.simpleFormat);
    }
    if Truthy(a.encoding) {
      if !a.encoding.Str? {
        return Failure(TypeError(EncodingMessage));
      }
      encoding := Some(a.encoding);
    }
    return Success(RegisterTail(fieldIds, format, delimiter, simple, encoding));
  }

  // ------------------------------------------------------------ the request

  /** The attributes of a constructed `FormRegisterRequest`; `filters` holds
      the `fld...` attributes. */
  datatype RegisterAttrs = RegisterAttrs(head: RegisterHead, dates: RegisterDates, filters: Attrs, tail: RegisterTail)

  predicate FiltersAccepted(rt: Runtime, a: FormRegisterArgs) {
    Truthy(a.filters) ==> FiltersArg(rt, a.filters).Success?
  }

  /** The arguments `FormRegisterRequest(...)` accepts without raising. */
  predicate RegisterAccepted(rt: Runtime, a: FormRegisterArgs) {
    HeadAccepted(a) && DatesAccepted(a) && FiltersAccepted(rt, a) && TailAccepted(a)
  }

  /** `FormRegisterRequest(...)`. */
  method NewFormRegisterRequest(rt: Runtime, a: FormRegisterArgs) returns (r: Result<RegisterAttrs, Error>)
    ensures r.Success? <==> RegisterAccepted(rt, a)
    // a stored format is one of the two the server knows
    ensures r.Success? && r.value.tail.format.Some? ==> r.value.tail.format.value.Str? && r.value.tail.format.value.s in Formats
    ensures r.Success? ==> r.value.tail.format == IfGiven(a.format, a.format)
    // the filter attributes are exactly those of the filter loop, all named `fld...`
    ensures r.Success? ==> r.value.filters == (if Truthy(a.filters) then FiltersArg(rt, a.filters).value else map[])
    ensures r.Success? ==> forall k :: k in r.value.filters ==> IsFilterName(k)
    ensures r.Success? ==> r.value.head.steps == IfGiven(a.steps, a.steps)
    ensures r.Success? ==> r.value.dates.modifiedBefore == Stamp(rt.formatDateTime, a.modifiedBefore)
    ensures r.Success? ==> r.value.dates.createdAfter == Stamp(rt.formatDateTime, a.createdAfter)
    ensures r.Success? ==> r.value.tail.fieldIds == IfGiven(a.fieldIds, a.fieldIds)
  {
    var head :- RegisterHeadBlocks(a);
    var dates :- RegisterDateBlocks(rt, a);
    var filters := map[];
    if Truthy(a.filters) {
      filters :- FiltersArg(rt, a.filters);
    }
    var tail :- RegisterTailBlocks(a);
    return Success(RegisterAttrs(head, dates, filters, tail));
  }
}

=== FILE: request_fields.dfy ===
/** The argument checks and normalisations shared by the request-body
    constructors of `pyrus/models/requests.py`.  Each returns the value the
    constructor stores, or the exception it raises. */
module RequestFields {
  import opened Wrappers
  import opened Values
  import Decimal

  /** The external channels a comment can be sent to. */
  const Channels: set<string> := {"email", "telegram", "web", "facebook", "vk", "viber", "mobile_app",
                                  "web_widget", "moy_sklad", "zadarma", "amo_crm", "instagram"}

  /** `entities.Channel(type=...)`. */
  function ChannelOf(name: Value): Value {
    Object("Channel", [Member("type", name)])
  }

  function ChannelArg(v: Value): (r: Result<Value, Error>)
    ensures r.Success? <==> v.Str? && v.s in Channels
    ensures r.Success? ==> r.value == ChannelOf(v)
  {
    if !v.Str? then Failure(TypeError("channel must be an instance of str"))
    else if v.s !in Channels then Failure(TypeError("channel must be correct"))
    else Success(ChannelOf(v))
  }

  /** The values `approval_choice` and `action` of a comment accept. */
  const ApprovalChoices: set<string> := {"approved", "rejected", "revoked", "acknowledged"}
  const CommentActions: set<string> := {"finished", "reopened"}

  /** A datetime rendered with `strftime` in the given format; anything else
      raises `TypeError('<property> must be a date')`.  With the date-time
      format this is `_date_to_str`. */
  function DateArg(format: int -> string, v: Value, property: string): (r: Result<Value, Error>)
    ensures r.Success? <==> v.DateTime?
    ensures r.Success? ==> r.value == Str(format(v.instant))
    ensures r.Failure? ==> r.error == TypeError(property + " must be a date")
  {
    if v.DateTime? then Success(Str(format(v.instant)))
    else Failure(TypeError(property + " must be a date"))
  }

  /** What an `if arg: self.<name> = value` block leaves behind: the value
      when the argument is truthy, no attribute otherwise. */
  function IfGiven(arg: Value, value: Value): Option<Value> {
    if Truthy(arg) then Some(value) else None
  }

  /** What an `if arg: self.<name> = check(arg)` block leaves behind once it
      has not raised: the checked value when the argument is truthy, no
      attribute otherwise. */
  function Stored(arg: Value, checked: Result<Value, Error>): Option<Value> {
    if Truthy(arg) && checked.Success? then Some(checked.value) else None
  }

  /** A truthy argument that must be a datetime is one. */
  predicate DateOrAbsent(arg: Value) {
    Truthy(arg) ==> arg.DateTime?
  }

  /** What a date block leaves behind: the datetime argument rendered with
      `format` when it is truthy, no attribute otherwise. */
  function Stamp(format: int -> string, arg: Value): Option<Value> {
    if Truthy(arg) && arg.DateTime? then Some(Str(format(arg.instant))) else None
  }

  /** A truthy argument that must be a list of ints is one. */
  predicate IntListOrAbsent(arg: Value) {
    Truthy(arg) ==> IsIntList(arg)
  }

  const AttachmentsMessage := "attachments must be a list"

  // ---------------------------------------------------------------- persons

  function PersonWithId(id: Value): Value {
    Object("Person", [Member("id", id)])
  }

  function PersonWithEmail(email: Value): Value {
    Object("Person", [Member("email", email)])
  }

  /** The coercion used for `reassign_to`, `responsible`, subscribers and
      approvers: a Person is kept, an int becomes `Person(id=...)`, anything
      else becomes `Person(email=...)`. */
  function CoercePerson(v: Value): (p: Value)
    ensures IsInstance(p, "Person")
    ensures IsInstance(v, "Person") ==> p == v
    ensures !IsInstance(v, "Person") ==> (GetAttr(p, "id") == Success(v) <==> IsInt(v))
    ensures !IsInstance(v, "Person") ==> (GetAttr(p, "email") == Success(v) <==> !IsInt(v))
  {
    if IsInstance(v, "Person") then v
    else if IsInt(v) then PersonWithId(v)
    else PersonWithEmail(v)
  }

  /** Coercing twice changes nothing. */
  lemma CoercePersonIdempotent(v: Value)
    ensures CoercePerson(CoercePerson(v)) == CoercePerson(v)
  {
  }

  function CoercePersonSeq(xs: seq<Value>): (ys: seq<Value>)
    ensures |ys| == |xs|
    ensures forall i :: 0 <= i < |xs| ==> ys[i] == CoercePerson(xs[i])
  {
    if |xs| == 0 then [] else [CoercePerson(xs[0])] + CoercePersonSeq(xs[1..])
  }

  /** A list of persons (subscribers, ...): not a list raises TypeError;
      otherwise every item is coerced, keeping length and order. */
  function PersonListArg(v: Value, name: string): (r: Result<Value, Error>)
    ensures r.Success? <==> v.List?
    ensures r.Failure? ==> r.error == TypeError(name + " must be a list")
    ensures r.Success? ==> r.value.List? && |r.value.items| == |v.items|
    ensures r.Success? ==> forall i :: 0 <= i < |v.items| ==> r.value.items[i] == CoercePerson(v.items[i])
  {
    if v.List? then Success(List(CoercePersonSeq(v.items)))
    else Failure(TypeError(name + " must be a list"))
  }

  const ApprovalStepMessage := "approval_step must be a list of persons, person ids, or person emails"

  function ApprovalStepSeq(steps: seq<Value>): (r: Result<seq<Value>, Error>)
    ensures r.Success? <==> forall i :: 0 <= i < |steps| ==> steps[i].List?
    ensures r.Failure? ==> r.error == TypeError(ApprovalStepMessage)
    ensures r.Success? ==> |r.value| == |steps|
    ensures r.Success? ==> forall i :: 0 <= i < |steps| ==> r.value[i] == List(CoercePersonSeq(steps[i].items))
  {
    if |steps| == 0 then Success([])
    else if !steps[0].List? then Failure(TypeError(ApprovalStepMessage))
    else
      var rest :- ApprovalStepSeq(steps[1..]);
      Success([List(CoercePersonSeq(steps[0].items))] + rest)
  }

  /** A list whose every item is a list. */
  predicate IsListOfLists(v: Value) {
    v.List? && forall i :: 0 <= i < |v.items| ==> v.items[i].List?
  }

  /** A list of approval steps, each a list of persons: the outer and every
      inner length is kept and each person is coerced. */
  function ApprovalsArg(v: Value, name: string): (r: Result<Value, Error>)
    ensures r.Success? <==> IsListOfLists(v)
    ensures !v.List? ==> r == Failure(TypeError(name + " must be a list"))
    ensures v.List? && r.Failure? ==> r.error == TypeError(ApprovalStepMessage)
    ensures r.Success? ==> r.value.List? && |r.value.items| == |v.items|
    ensures r.Success? ==> forall i :: 0 <= i < |v.items| ==>
      r.value.items[i].List? && |r.value.items[i].items| == |v.items[i].items|
      && forall j :: 0 <= j < |v.items[i].items| ==> r.value.items[i].items[j] == CoercePerson(v.items[i].items[j])
  {
    if !v.List? then Failure(TypeError(name + " must be a list"))
    else
      var steps :- ApprovalStepSeq(v.items);
      Success(List(steps))
  }

  /** `int(v)` succeeds: ints and booleans, and strings Python's `int()` parses. */
  predicate IntConvertible(v: Value) {
    IsInt(v) || (v.Str? && Decimal.ParseInt(v.s).Some?)
  }

  /** The coercion used for participants: `int(person)` decides.  When it
      succeeds the value itself (not the parsed int) becomes the id; when it
      raises ValueError the value becomes the email; a TypeError from `int()`
      (None, lists, entity objects, ...) is not caught. */
  function CoerceParticipant(v: Value): (r: Result<Value, Error>)
    ensures r.Success? <==> IsInt(v) || v.Str?
    ensures r.Success? && IntConvertible(v) ==> r.value == PersonWithId(v)
    ensures r.Success? && !IntConvertible(v) ==> r.value == PersonWithEmail(v)
  {
    if IsInt(v) then Success(PersonWithId(v))
    else if v.Str? then
      if Decimal.ParseInt(v.s).Some? then Success(PersonWithId(v)) else Success(PersonWithEmail(v))
    else Failure(TypeError("int() argument must be a string, a bytes-like object or a real number"))
  }

  /** A decimal string such as "42" is taken as an id, never as an email. */
  lemma DecimalParticipantIsId(n: int)
    ensures CoerceParticipant(Str(Decimal.IntToString(n))) == Success(PersonWithId(Str(Decimal.IntToString(n))))
  {
    Decimal.ParseIntOfIntToString(n);
  }

  function ParticipantSeq(xs: seq<Value>): (r: Result<seq<Value>, Error>)
    ensures r.Success? <==> forall i :: 0 <= i < |xs| ==> IsInt(xs[i]) || xs[i].Str?
    ensures r.Success? ==> |r.value| == |xs|
    ensures r.Success? ==> forall i :: 0 <= i < |xs| ==> CoerceParticipant(xs[i]) == Success(r.value[i])
  {
    if |xs| == 0 then Success([])
    else
      var p :- CoerceParticipant(xs[0]);
      var rest :- ParticipantSeq(xs[1..]);
      Success([p] + rest)
  }

  /** A list `int()` accepts every item of without TypeError. */
  predicate IsParticipantList(v: Value) {
    v.List? && forall i :: 0 <= i < |v.items| ==> IsInt(v.items[i]) || v.items[i].Str?
  }

  /** A list of participants, each coerced through `int()`. */
  function ParticipantListArg(v: Value, name: string): (r: Result<Value, Error>)
    ensures r.Success? <==> IsParticipantList(v)
    ensures !v.List? ==> r == Failure(TypeError(name + " must be a list"))
    ensures r.Success? ==> r.value.List? && |r.value.items| == |v.items|
    ensures r.Success? ==> forall i :: 0 <= i < |v.items| ==> CoerceParticipant(v.items[i]) == Success(r.value.items[i])
  {
    if !v.List? then Failure(TypeError(name + " must be a list"))
    else
      var ps :- ParticipantSeq(v.items);
      Success(List(ps))
  }

  // ----------------------------------------------------------- field values

  /** A field value given as a dict-like container: it names the field (by
      `name` or `id`) and carries a `value`. */
  predicate NamesFieldAndValue(x: Value)
    requires x.List? || x.Str? || x.Dict?
  {
    (Contains(x, "name") == Success(true) || Contains(x, "id") == Success(true))
    && Contains(x, "value") == Success(true)
  }

  /** An item `field_updates` / `fields` accepts. */
  predicate AcceptableField(x: Value) {
    IsInstance(x, "FormField") || ((x.List? || x.Str? || x.Dict?) && NamesFieldAndValue(x))
  }

  function CheckField(x: Value, noun: string): (r: Result<Value, Error>)
    ensures r.Success? <==> AcceptableField(x)
    ensures r.Success? ==> r.value == x
  {
    if IsInstance(x, "FormField") then Success(x)
    else
      match Contains(x, "name")
      case Failure(e) => Failure(e)
      case Success(hasName) =>
        // once `x` answered `in`, the later membership tests cannot raise
        if !hasName && Contains(x, "id") != Success(true) then
          Failure(TypeError("each " + noun + " must contain field id or name"))
        else if Contains(x, "value") != Success(true) then
          Failure(TypeError("each " + noun + " must contain field value"))
        else Success(x)
  }

  function CheckFieldSeq(xs: seq<Value>, noun: string): (r: Result<seq<Value>, Error>)
    ensures r.Success? <==> forall i :: 0 <= i < |xs| ==> AcceptableField(xs[i])
    ensures r.Success? ==> r.value == xs
  {
    if |xs| == 0 then Success([])
    else
      var x :- CheckField(xs[0], noun);
      var rest :- CheckFieldSeq(xs[1..], noun);
      Success([x] + rest)
  }

  /** Every item a `for` loop over `v` visits is an acceptable field value. */
  predicate FieldItemsAccepted(v: Value) {
    Iterate(v).Success? && forall i :: 0 <= i < |Iterate(v).value| ==> AcceptableField(Iterate(v).value[i])
  }

  /** `field_updates` / `fields`: every item the loop visits must be a
      FormField or name the field and carry a value; the accepted items are
      stored unchanged and in order.  There is no `isinstance(list)` check, so
      a dict or a string is iterated like any other iterable. */
  function FieldListArg(v: Value, noun: string): (r: Result<Value, Error>)
    ensures r.Success? <==> FieldItemsAccepted(v)
    ensures v.List? ==> (r.Success? <==> forall i :: 0 <= i < |v.items| ==> AcceptableField(v.items[i]))
    ensures v.List? && r.Success? ==> r.value == v
    ensures !(v.List? || v.Str? || v.Dict?) ==> r.Failure?
  {
    var items :- Iterate(v);
    var checked :- CheckFieldSeq(items, noun);
    Success(List(checked))
  }

  /** For a list of dicts, acceptance is exactly: each has `id` or `name`, and `value`. */
  lemma FieldDictsAccepted(v: Value, noun: string)
    requires v.List? && forall i :: 0 <= i < |v.items| ==> v.items[i].Dict?
    ensures FieldListArg(v, noun).Success? <==>
      forall i :: 0 <= i < |v.items| ==>
        (HasKey(v.items[i].members, "id") || HasKey(v.items[i].members, "name"))
        && HasKey(v.items[i].members, "value")
  {
  }

  // ---------------------------------------------------------------- catalogs

  predicate HeaderItem(x: Value) {
    (IsInstance(x, "CatalogHeader") && HasKey(x.attrs, "name")) || (!IsInstance(x, "CatalogHeader") && x.Str?)
  }

  function HeaderName(x: Value): Value
    requires HeaderItem(x)
  {
    if IsInstance(x, "CatalogHeader") then Get(x.attrs, "name") else x
  }

  function HeaderSeq(xs: seq<Value>): (r: Result<seq<Value>, Error>)
    ensures r.Success? <==> forall i :: 0 <= i < |xs| ==> HeaderItem(xs[i])
    ensures r.Success? ==> |r.value| == |xs|
    ensures r.Success? ==> forall i :: 0 <= i < |xs| ==> r.value[i] == HeaderName(xs[i])
  {
    if |xs| == 0 then Success([])
    else
      var x := xs[0];
      var name :-
        if IsInstance(x, "CatalogHeader") then GetAttr(x, "name")
        else if x.Str? then Success(x)
        else Failure(TypeError("list_ids must be a list of str or models.entities.CatalogHeader"));
      var rest :- HeaderSeq(xs[1..]);
      Success([name] + rest)
  }

  /** `_get_catalog_headers`: a list of the same length mapping a
      CatalogHeader to its name and a string to itself. */
  function CatalogHeadersArg(v: Value): (r: Result<Value, Error>)
    ensures r.Success? <==> v.List? && forall i :: 0 <= i < |v.items| ==> HeaderItem(v.items[i])
    ensures !v.List? ==> r == Failure(TypeError("catalog_headers must be a list of str"))
    ensures r.Success? ==> r.value.List? && |r.value.items| == |v.items|
    ensures r.Success? ==> forall i :: 0 <= i < |v.items| ==> r.value.items[i] == HeaderName(v.items[i])
  {
    if !v.List? then Failure(TypeError("catalog_headers must be a list of str"))
    else
      var names :- HeaderSeq(v.items);
      Success(List(names))
  }

  predicate CatalogItemConvertible(rt: Runtime, x: Value) {
    rt.catalogItemFromList(x).Some? || IsInstance(x, "CatalogItem")
  }

  function CatalogItemSeq(rt: Runtime, xs: seq<Value>): (r: Result<seq<Value>, Error>)
    ensures r.Success? <==> forall i :: 0 <= i < |xs| ==> CatalogItemConvertible(rt, xs[i])
    ensures r.Success? ==> |r.value| == |xs|
  {
    if |xs| == 0 then Success([])
    else
      var item :-
        match rt.catalogItemFromList(xs[0])
        case Some(built) => Success(built)
        case None =>
          if IsInstance(xs[0], "CatalogItem") then Success(xs[0])
          else Failure(TypeError("catalog_items must be a list of str or models.entities.CatalogItems"));
      var rest :- CatalogItemSeq(rt, xs[1..]);
      Success([item] + rest)
  }

  /** `_get_catalog_items`: the list-shape check, then one item per input. */
  function CatalogItemsArg(rt: Runtime, v: Value): (r: Result<Value, Error>)
    ensures !v.List? ==> r == Failure(TypeError("catalog_items must be a list"))
    ensures r.Success? ==> v.List? && r.value.List? && |r.value.items| == |v.items|
  {
    if !v.List? then Failure(TypeError("catalog_items must be a list"))
    else
      var items :- CatalogItemSeq(rt, v.items);
      Success(List(items))
  }
}

=== FILE: requests.dfy ===
/** The request bodies the client sends (pyrus/models/requests.py): the
    three large constructors live in their own modules; the authentication
    and catalog requests are small enough to sit here.  A body is what the
    constructor left on the object; it is serialised as JSON when sent. */
module Requests {
  import opened Wrappers
  import opened Values
  import opened RequestFields
  import opened RegisterRequests
  import opened CommentRequests
  import opened TaskRequests

  // ------------------------------------------------------------ AuthRequest

  datatype AuthAttrs = AuthAttrs(login: Option<Value>, securityKey: Option<Value>)

  /** `AuthRequest(login, security_key)`: each credential becomes an
      attribute only when it is truthy; nothing is checked. */
  function NewAuthRequest(login: Value, securityKey: Value): (r: AuthAttrs)
    ensures r.login.Some? <==> Truthy(login)
    ensures r.securityKey.Some? <==> Truthy(securityKey)
    ensures r.login.Some? ==> r.login.value == login
    ensures r.securityKey.Some? ==> r.securityKey.value == securityKey
  {
    AuthAttrs(IfGiven(login, login), IfGiven(securityKey, securityKey))
  }

  // --------------------------------------------------------------- catalogs

  const ApplyMessage := "apply must be a bool"
  const NameMessage := "name must be a str"

  datatype CatalogAttrs = CatalogAttrs(catalogHeaders: Option<Value>, items: Option<Value>)

  /** The `catalog_headers` and `items` blocks shared by both catalog
      requests: `_get_catalog_headers` then `_get_catalog_items`. */
  function CatalogBlocks(rt: Runtime, headers: Value, items: Value): (r: Result<CatalogAttrs, Error>)
    ensures r.Success? <==>
      (Truthy(headers) ==> CatalogHeadersArg(headers).Success?) && (Truthy(items) ==> CatalogItemsArg(rt, items).Success?)
    ensures Truthy(headers) && !headers.List? ==> r == Failure(TypeError("catalog_headers must be a list of str"))
    ensures r.Success? ==> r.value.catalogHeaders == Stored(headers, CatalogHeadersArg(headers))
    ensures r.Success? ==> r.value.items == Stored(items, CatalogItemsArg(rt, items))
  {
    if Truthy(headers) && CatalogHeadersArg(headers).Failure? then CatalogHeadersArg(headers).PropagateFailure()
    else if Truthy(items) && CatalogItemsArg(rt, items).Failure? then CatalogItemsArg(rt, items).PropagateFailure()
    else Success(CatalogAttrs(Stored(headers, CatalogHeadersArg(headers)), Stored(items, CatalogItemsArg(rt, items))))
  }

  datatype SyncCatalogAttrs = SyncCatalogAttrs(apply: Option<Value>, catalog: CatalogAttrs)

  /** `SyncCatalogRequest(apply, catalog_headers, items)`. */
  function NewSyncCatalogRequest(rt: Runtime, apply: Value, headers: Value, items: Value): (r: Result<SyncCatalogAttrs, Error>)
    ensures Truthy(apply) && !apply.Bool? ==> r == Failure(TypeError(ApplyMessage))
    ensures r.Success? <==> (Truthy(apply) ==> apply.Bool?) && CatalogBlocks(rt, headers, items).Success?
    ensures r.Success? ==> r.value.apply == IfGiven(apply, apply)
    ensures r.Success? ==> r.value.catalog == CatalogBlocks(rt, headers, items).value
  {
    if Truthy(apply) && !apply.Bool? then Failure(TypeError(ApplyMessage))
    else
      var catalog :- CatalogBlocks(rt, headers, items);
      Success(SyncCatalogAttrs(IfGiven(apply, apply), catalog))
  }

  datatype CreateCatalogAttrs = CreateCatalogAttrs(name: Option<Value>, catalog: CatalogAttrs)

  /** `CreateCatalogRequest(name, catalog_headers, items)`. */
  function NewCreateCatalogRequest(rt: Runtime, name: Value, headers: Value, items: Value): (r: Result<CreateCatalogAttrs, Error>)
    ensures Truthy(name) && !name.Str? ==> r == Failure(TypeError(NameMessage))
    ensures r.Success? <==> (Truthy(name) ==> name.Str?) && CatalogBlocks(rt, headers, items).Success?
    ensures r.Success? ==> r.value.name == IfGiven(name, name)
    ensures r.Success? ==> r.value.catalog == CatalogBlocks(rt, headers, items).value
  {
    if Truthy(name) && !name.Str? then Failure(TypeError(NameMessage))
    else
      var catalog :- CatalogBlocks(rt, headers, items);
      Success(CreateCatalogAttrs(IfGiven(name, name), catalog))
  }

  // ------------------------------------------------------------------ bodies

  /** A constructed request object, tagged with its class. */
  datatype RequestBody =
    | FormRegisterBody(register: RegisterAttrs)
    | TaskCommentBody(comment: CommentAttrs)
    | CreateTaskBody(task: TaskAttrs)
    | AuthBody(auth: AuthAttrs)
    | SyncCatalogBody(sync: SyncCatalogAttrs)
    | CreateCatalogBody(create: CreateCatalogAttrs)

  /** `isinstance(request, FormRegisterRequest) and getattr(request,
      'format', 'json') == "csv"`: a register query asking for CSV. */
  predicate IsCsvRegister(body: Option<RequestBody>) {
    body.Some? && body.value.FormRegisterBody? && body.value.register.tail.format == Some(Str("csv"))
  }
}

=== FILE: responses.dfy ===
/** The response objects the client builds from decoded replies
    (pyrus/models/responses.py).  Each constructor receives the reply's
    members as keyword arguments, probes it for optional keys, maps list
    keys element by element through an entity constructor, and finally
    records the whole map and its two error keys in the base part. */
module Responses {
  import opened Wrappers
  import opened Values

  /** The constructors of `models.entities`, whose text is not part of this
      model: given the class name and the keyword arguments, an entity
      object or the exception its constructor raises. */
  datatype Entities = Entities(make: (string, seq<Member>) -> Result<Value, Error>)

  const MappingMessage := "argument after ** must be a mapping"

  /** `**v`: only a dict can be spread into keyword arguments. */
  function Splat(v: Value): (r: Result<seq<Member>, Error>)
    ensures r.Success? <==> v.Dict?
    ensures r.Success? ==> r.value == v.members
    ensures r.Failure? ==> r.error == TypeError(MappingMessage)
  {
    if v.Dict? then Success(v.members) else Failure(TypeError(MappingMessage))
  }

  /** `entities.<cls>(**item)`. */
  function Entity(en: Entities, cls: string, item: Value): (r: Result<Value, Error>)
    ensures !item.Dict? ==> r == Failure(TypeError(MappingMessage))
    ensures item.Dict? ==> r == en.make(cls, item.members)
  {
    var kwargs :- Splat(item);
    en.make(cls, kwargs)
  }

  /** `out` is `items` converted by `f` element by element, in order. */
  ghost predicate Converts<T>(f: Value -> Result<T, Error>, items: seq<Value>, out: seq<T>) {
    |out| == |items| && forall i :: 0 <= i < |items| ==> f(items[i]) == Success(out[i])
  }

  /** The loop `for x in items: out.append(f(x))`: the first element whose
      conversion raises ends it with that exception. */
  function MapItems<T>(f: Value -> Result<T, Error>, items: seq<Value>): (r: Result<seq<T>, Error>)
    ensures r.Success? <==> forall i :: 0 <= i < |items| ==> f(items[i]).Success?
    ensures r.Success? ==> Converts(f, items, r.value)
    ensures r.Failure? ==>
      exists i :: 0 <= i < |items| && f(items[i]) == Failure(r.error) && (forall j :: 0 <= j < i ==> f(items[j]).Success?)
  {
    if items == [] then Success([])
    else
      var head :- f(items[0]);
      var tail :- MapItems(f, items[1..]);
      Success([head] + tail)
  }

  /** `if key in kwargs: self.x = [f(e) for e in kwargs[key]]`: absent when
      the key is missing, otherwise one converted element per element, in
      order. */
  function ListField<T>(kwargs: seq<Member>, key: string, f: Value -> Result<T, Error>): (r: Result<Option<seq<T>>, Error>)
    ensures !HasKey(kwargs, key) ==> r == Success(None)
    ensures HasKey(kwargs, key) && Iterate(Get(kwargs, key)).Failure? ==> r == Iterate(Get(kwargs, key)).PropagateFailure()
    ensures r.Success? ==> (r.value.Some? <==> HasKey(kwargs, key))
    ensures r.Success? && r.value.Some? ==> Converts(f, Iterate(Get(kwargs, key)).value, r.value.value)
    ensures HasKey(kwargs, key) && Get(kwargs, key).List? ==>
      (r.Success? <==> forall i :: 0 <= i < |Get(kwargs, key).items| ==> f(Get(kwargs, key).items[i]).Success?)
  {
    if !HasKey(kwargs, key) then Success(None)
    else
      var items :- Iterate(Get(kwargs, key));
      var converted :- MapItems(f, items);
      Success(Some(converted))
  }

  /** `if key in kwargs: self.x = kwargs[key]`. */
  function Copied(kwargs: seq<Member>, key: string): (r: Option<Value>)
    ensures r.Some? <==> HasKey(kwargs, key)
    ensures r.Some? ==> exists i :: 0 <= i < |kwargs| && kwargs[i] == Member(key, r.value)
  {
    Find(kwargs, key)
  }

  // ----------------------------------------------------------- BaseResponse

  datatype BaseResponse = BaseResponse(originalResponse: seq<Member>, errorCode: Value, error: Value)

  /** `BaseResponse(**data)`: keeps the whole map, and `data.get` of the two
      error keys. */
  function NewBaseResponse(data: seq<Member>): (b: BaseResponse)
    ensures b.originalResponse == data
    ensures !HasKey(data, "error_code") ==> b.errorCode == Null
    ensures HasKey(data, "error_code") ==> exists i :: 0 <= i < |data| && data[i] == Member("error_code", b.errorCode)
    ensures !HasKey(data, "error") ==> b.error == Null
    ensures HasKey(data, "error") ==> exists i :: 0 <= i < |data| && data[i] == Member("error", b.error)
  {
    BaseResponse(data, Get(data, "error_code"), Get(data, "error"))
  }

  // ----------------------------------------------------------- AuthResponse

  datatype AuthResponse = AuthResponse(accessToken: Value, success: bool, base: BaseResponse)

  /** `AuthResponse(**kwargs)`: successful exactly when the reply holds an
      access token. */
  function NewAuthResponse(kwargs: seq<Member>): (r: AuthResponse)
    ensures r.success <==> HasKey(kwargs, "access_token")
    ensures r.success ==> Subscript(Dict(kwargs), "access_token") == Success(r.accessToken)
    ensures !r.success ==> r.accessToken == Null
    ensures r.base == NewBaseResponse(kwargs)
  {
    match Find(kwargs, "access_token")
    case Some(token) => AuthResponse(token, true, NewBaseResponse(kwargs))
    case None => AuthResponse(Null, false, NewBaseResponse(kwargs))
  }

  // ------------------------------------------------------------------ forms

  datatype FormResponse = FormResponse(form: Value, base: BaseResponse)

  /** `FormResponse(**data)`: the form entity is built from the whole map. */
  function NewFormResponse(en: Entities, data: seq<Member>): (r: Result<FormResponse, Error>)
    ensures r.Success? <==> en.make("Form", data).Success?
    ensures r.Success? ==> r.value.form == en.make("Form", data).value && r.value.base == NewBaseResponse(data)
  {
    var form :- en.make("Form", data);
    Success(FormResponse(form, NewBaseResponse(data)))
  }

  /** `FormResponse(**form)` for one element of a form list. */
  function FormItem(en: Entities, item: Value): Result<FormResponse, Error> {
    var data :- Splat(item);
    NewFormResponse(en, data)
  }

  datatype FormsResponse = FormsResponse(forms: Option<seq<FormResponse>>, base: BaseResponse)

  /** `FormsResponse(**kwargs)`. */
  function NewFormsResponse(en: Entities, kwargs: seq<Member>): (r: Result<FormsResponse, Error>)
    ensures r.Success? <==> ListField(kwargs, "forms", v => FormItem(en, v)).Success?
    ensures r.Success? ==> (r.value.forms.None? <==> !HasKey(kwargs, "forms"))
    ensures r.Success? && r.value.forms.Some? ==>
      Converts(v => FormItem(en, v), Iterate(Get(kwargs, "forms")).value, r.value.forms.value)
    ensures r.Success? ==> r.value.base == NewBaseResponse(kwargs)
  {
    var forms :- ListField(kwargs, "forms", v => FormItem(en, v));
    Success(FormsResponse(forms, NewBaseResponse(kwargs)))
  }

  // ------------------------------------------------------------------ tasks

  datatype TaskResponse = TaskResponse(task: Option<Value>, base: BaseResponse)

  /** `TaskResponse(**kwargs)`: the task entity, when the key is present. */
  function NewTaskResponse(en: Entities, kwargs: seq<Member>): (r: Result<TaskResponse, Error>)
    ensures !HasKey(kwargs, "task") ==> r == Success(TaskResponse(None, NewBaseResponse(kwargs)))
    ensures HasKey(kwargs, "task") ==> (r.Success? <==> Entity(en, "TaskWithComments", Get(kwargs, "task")).Success?)
    ensures r.Success? ==> (r.value.task.Some? <==> HasKey(kwargs, "task"))
    ensures r.Success? && r.value.task.Some? ==> Entity(en, "TaskWithComments", Get(kwargs, "task")) == Success(r.value.task.value)
    ensures r.Success? ==> r.value.base == NewBaseResponse(kwargs)
  {
    if HasKey(kwargs, "task") then
      var task :- Entity(en, "TaskWithComments", Get(kwargs, "task"));
      Success(TaskResponse(Some(task), NewBaseResponse(kwargs)))
    else Success(TaskResponse(None, NewBaseResponse(kwargs)))
  }

  // --------------------------------------------------------------- contacts

  datatype ContactsResponse = ContactsResponse(organizations: Option<seq<Value>>, base: BaseResponse)

  /** `ContactsResponse(**kwargs)`. */
  function NewContactsResponse(en: Entities, kwargs: seq<Member>): (r: Result<ContactsResponse, Error>)
    ensures r.Success? <==> ListField(kwargs, "organizations", v => Entity(en, "Organization", v)).Success?
    ensures r.Success? ==> (r.value.organizations.None? <==> !HasKey(kwargs, "organizations"))
    ensures r.Success? && r.value.organizations.Some? ==>
      Converts(v => Entity(en, "Organization", v), Iterate(Get(kwargs, "organizations")).value, r.value.organizations.value)
    ensures r.Success? ==> r.value.base == NewBaseResponse(kwargs)
  {
    var organizations :- ListField(kwargs, "organizations", v => Entity(en, "Organization", v));
    Success(ContactsResponse(organizations, NewBaseResponse(kwargs)))
  }

  // ---------------------------------------------------------------- catalog

  datatype CatalogResponse = CatalogResponse(catalog: Value, base: BaseResponse)

  /** `CatalogResponse(**data)`: one catalog entity from the whole map. */
  function NewCatalogResponse(en: Entities, data: seq<Member>): (r: Result<CatalogResponse, Error>)
    ensures r.Success? <==> en.make("Catalog", data).Success?
    ensures r.Success? ==> r.value.catalog == en.make("Catalog", data).value && r.value.base == NewBaseResponse(data)
  {
    var catalog :- en.make("Catalog", data);
    Success(CatalogResponse(catalog, NewBaseResponse(data)))
  }

  // --------------------------------------------------------------- register

  datatype FormRegisterResponse = FormRegisterResponse(tasks: Option<seq<Value>>, csv: Option<string>, base: BaseResponse)

  /** `FormRegisterResponse(**kwargs)`: a JSON register reply. */
  function NewFormRegisterResponse(en: Entities, kwargs: seq<Member>): (r: Result<FormRegisterResponse, Error>)
    ensures r.Success? <==> ListField(kwargs, "tasks", v => Entity(en, "Task", v)).Success?
    ensures r.Success? ==> (r.value.tasks.None? <==> !HasKey(kwargs, "tasks"))
    ensures r.Success? && r.value.tasks.Some? ==>
      Converts(v => Entity(en, "Task", v), Iterate(Get(kwargs, "tasks")).value, r.value.tasks.value)
    ensures r.Success? ==> r.value.csv.None? && r.value.base == NewBaseResponse(kwargs)
  {
    var tasks :- ListField(kwargs, "tasks", v => Entity(en, "Task", v));
    Success(FormRegisterResponse(tasks, None, NewBaseResponse(kwargs)))
  }

  /** `res = FormRegisterResponse(); res.csv = text`: the CSV text verbatim,
      no tasks, an empty original map. */
  function CsvRegisterResponse(text: string): (r: FormRegisterResponse)
    ensures r.csv == Some(text) && r.tasks.None?
    ensures r.base.originalResponse == [] && r.base.errorCode == Null && r.base.error == Null
  {
    FormRegisterResponse(None, Some(text), NewBaseResponse([]))
  }

  // ----------------------------------------------------------------- upload

  datatype UploadResponse = UploadResponse(guid: Option<Value>, md5Hash: Option<Value>, base: BaseResponse)

  /** `UploadResponse(**kwargs)`: each of the two keys copied when present. */
  function NewUploadResponse(kwargs: seq<Member>): (r: UploadResponse)
    ensures r.guid.Some? <==> HasKey(kwargs, "guid")
    ensures r.guid.Some? ==> Subscript(Dict(kwargs), "guid") == Success(r.guid.value)
    ensures r.md5Hash.Some? <==> HasKey(kwargs, "md5_hash")
    ensures r.md5Hash.Some? ==> Subscript(Dict(kwargs), "md5_hash") == Success(r.md5Hash.value)
    ensures r.base == NewBaseResponse(kwargs)
  {
    UploadResponse(Copied(kwargs, "guid"), Copied(kwargs, "md5_hash"), NewBaseResponse(kwargs))
  }

  // ------------------------------------------------------------------ lists

  datatype ListsResponse = ListsResponse(lists: Option<seq<Value>>, base: BaseResponse)

  /** `ListsResponse(**kwargs)`. */
  function NewListsResponse(en: Entities, kwargs: seq<Member>): (r: Result<ListsResponse, Error>)
    ensures r.Success? <==> ListField(kwargs, "lists", v => Entity(en, "TaskList", v)).Success?
    ensures r.Success? ==> (r.value.lists.None? <==> !HasKey(kwargs, "lists"))
    ensures r.Success? && r.value.lists.Some? ==>
      Converts(v => Entity(en, "TaskList", v), Iterate(Get(kwargs, "lists")).value, r.value.lists.value)
    ensures r.Success? ==> r.value.base == NewBaseResponse(kwargs)
  {
    var lists :- ListField(kwargs, "lists", v => Entity(en, "TaskList", v));
    Success(ListsResponse(lists, NewBaseResponse(kwargs)))
  }

  datatype TaskListResponse = TaskListResponse(hasMore: Option<Value>, tasks: Option<seq<Value>>, base: BaseResponse)

  /** `TaskListResponse(**kwargs)`. */
  function NewTaskListResponse(en: Entities, kwargs: seq<Member>): (r: Result<TaskListResponse, Error>)
    ensures r.Success? <==> ListField(kwargs, "tasks", v => Entity(en, "TaskHeader", v)).Success?
    ensures r.Success? ==> r.value.hasMore == Copied(kwargs, "has_more")
    ensures r.Success? ==> (r.value.tasks.None? <==> !HasKey(kwargs, "tasks"))
    ensures r.Success? && r.value.tasks.Some? ==>
      Converts(v => Entity(en, "TaskHeader", v), Iterate(Get(kwargs, "tasks")).value, r.value.tasks.value)
    ensures r.Success? ==> r.value.base == NewBaseResponse(kwargs)
  {
    var tasks :- ListField(kwargs, "tasks", v => Entity(en, "TaskHeader", v));
    Success(TaskListResponse(Copied(kwargs, "has_more"), tasks, NewBaseResponse(kwargs)))
  }

  // --------------------------------------------------------------- download

  datatype DownloadResponse = DownloadResponse(filename: Value, rawFile: seq<bv8>, base: BaseResponse)

  /** `DownloadResponse(filename, raw_file)`: the two values as given, an
      empty original map and no error. */
  function NewDownloadResponse(filename: Value, rawFile: seq<bv8>): (r: DownloadResponse)
    ensures r.filename == filename && r.rawFile == rawFile
    ensures r.base.originalResponse == [] && r.base.errorCode == Null && r.base.error == Null
  {
    DownloadResponse(filename, rawFile, NewBaseResponse([]))
  }

  // ----------------------------------------------------------- catalog sync

  datatype SyncCatalogResponse = SyncCatalogResponse(
    apply: Option<Value>, added: Option<seq<Value>>, updated: Option<seq<Value>>,
    deleted: Option<seq<Value>>, catalogHeaders: Option<seq<Value>>, base: BaseResponse)

  /** `SyncCatalogResponse(**kwargs)`: `apply` copied, the three item lists
      and the header list mapped, in that order. */
  function NewSyncCatalogResponse(en: Entities, kwargs: seq<Member>): (r: Result<SyncCatalogResponse, Error>)
    ensures r.Success? <==>
      && ListField(kwargs, "added", v => Entity(en, "CatalogItem", v)).Success?
      && ListField(kwargs, "updated", v => Entity(en, "CatalogItem", v)).Success?
      && ListField(kwargs, "deleted", v => Entity(en, "CatalogItem", v)).Success?
      && ListField(kwargs, "catalog_headers", v => Entity(en, "CatalogHeader", v)).Success?
    ensures r.Success? ==> r.value.apply == Copied(kwargs, "apply")
    ensures r.Success? ==> (r.value.added.None? <==> !HasKey(kwargs, "added"))
    ensures r.Success? ==> (r.value.updated.None? <==> !HasKey(kwargs, "updated"))
    ensures r.Success? ==> (r.value.deleted.None? <==> !HasKey(kwargs, "deleted"))
    ensures r.Success? ==> (r.value.catalogHeaders.None? <==> !HasKey(kwargs, "catalog_headers"))
    ensures r.Success? && r.value.added.Some? ==>
      Converts(v => Entity(en, "CatalogItem", v), Iterate(Get(kwargs, "added")).value, r.value.added.value)
    ensures r.Success? && r.value.updated.Some? ==>
      Converts(v => Entity(en, "CatalogItem", v), Iterate(Get(kwargs, "updated")).value, r.value.updated.value)
    ensures r.Success? && r.value.deleted.Some? ==>
      Converts(v => Entity(en, "CatalogItem", v), Iterate(Get(kwargs, "deleted")).value, r.value.deleted.value)
    ensures r.Success? && r.value.catalogHeaders.Some? ==>
      Converts(v => Entity(en, "CatalogHeader", v), Iterate(Get(kwargs, "catalog_headers")).value, r.value.catalogHeaders.value)
    ensures r.Success? ==> r.value.base == NewBaseResponse(kwargs)
  {
    var added :- ListField(kwargs, "added", v => Entity(en, "CatalogItem", v));
    var updated :- ListField(kwargs, "updated", v => Entity(en, "CatalogItem", v));
    var deleted :- ListField(kwargs, "deleted", v => Entity(en, "CatalogItem", v));
    var headers :- ListField(kwargs, "catalog_headers", v => Entity(en, "CatalogHeader", v));
    Success(SyncCatalogResponse(Copied(kwargs, "apply"), added, updated, deleted, headers, NewBaseResponse(kwargs)))
  }
}

=== FILE: task_request.dfy ===
/** `CreateTaskRequest` (pyrus/models/requests.py, lines 387-501): a new
    simple task or form task.  The `if arg:` blocks are grouped in source
    order, as for the comment request.  Unlike the comment request, this
    constructor lets `due` and `due_date` both be set, checks `duration`
    itself, and does not tie `duration` to `due`. */
module TaskRequests {
  import opened Wrappers
  import opened Values
  import opened RequestFields

  datatype CreateTaskArgs = CreateTaskArgs(
    text: Value, subject: Value, parentTaskId: Value, dueDate: Value, formId: Value,
    attachments: Value, responsible: Value, fields: Value, approvals: Value,
    subscribers: Value, participants: Value, listIds: Value, due: Value,
    duration: Value, scheduledDate: Value, scheduledDatetimeUtc: Value, fillDefaults: Value)

  const ParentTaskIdMessage := "parent_task_id must be an int"
  const DurationMessage := "duration must be an int"
  const FormIdMessage := "form_id must be int"
  const ListIdsMessage := "list_ids must be a list of int"
  const FillDefaultsMessage := "fill_defaults must be a boolean"

  // --------------------------------------------------- text ... duration

  datatype TaskHead = TaskHead(
    text: Option<Value>, subject: Option<Value>, parentTaskId: Option<Value>,
    dueDate: Option<Value>, due: Option<Value>, duration: Option<Value>)

  predicate HeadAccepted(a: CreateTaskArgs) {
    && (Truthy(a.parentTaskId) ==> IsInt(a.parentTaskId))
    && DateOrAbsent(a.dueDate)
    && DateOrAbsent(a.due)
    && (Truthy(a.duration) ==> IsInt(a.duration))
  }

  /** `text`, `subject`, `parent_task_id`, `due_date` (date format), `due`
      (date-time format) and `duration`. */
  method TaskHeadBlocks(rt: Runtime, a: CreateTaskArgs) returns (r: Result<TaskHead, Error>)
    ensures r.Success? <==> HeadAccepted(a)
    ensures ((Truthy(a.parentTaskId) ==> IsInt(a.parentTaskId)) && DateOrAbsent(a.dueDate) && DateOrAbsent(a.due)
             && Truthy(a.duration) && !IsInt(a.duration)) ==> r == Failure(TypeError(DurationMessage))
    ensures r.Success? ==> r.value.text == IfGiven(a.text, a.text)
    ensures r.Success? ==> r.value.subject == IfGiven(a.subject, a.subject)
    ensures r.Success? ==> r.value.parentTaskId == IfGiven(a.parentTaskId, a.parentTaskId)
    ensures r.Success? ==> r.value.dueDate == Stamp(rt.formatDate, a.dueDate)
    ensures r.Success? ==> r.value.due == Stamp(rt.formatDateTime, a.due)
    ensures r.Success? ==> r.value.duration == IfGiven(a.duration, a.duration)
  {
    var text, subject, parent, dueDate, due, duration := None, None, None, None, None, None;
    if Truthy(a.text) {
      text := Some(a.text);
    }
    if Truthy(a.subject) {
      subject := Some(a.subject);
    }
    if Truthy(a.parentTaskId) {
      if !IsInt(a.parentTaskId) {
        return Failure(TypeError(ParentTaskIdMessage));
      }
      parent := Some(a.parentTaskId);
    }
    if Truthy(a.dueDate) {
      var v :- DateArg(rt.formatDate, a.dueDate, "due_date");
      dueDate := Some(v);
    }
    if Truthy(a.due) {
      var v :- DateArg(rt.formatDateTime, a.due, "due");
      due := Some(v);
    }
    if Truthy(a.duration) {
      if !IsInt(a.duration) {
        return Failure(TypeError(DurationMessage));
      }
      duration := Some(a.duration);
    }
    return Success(TaskHead(text, subject, parent, dueDate, due, duration));
  }

  // ------------------------------------------------------------ scheduling

  datatype TaskSchedule = TaskSchedule(scheduledDate: Option<Value>, scheduledDatetimeUtc: Option<Value>)

  predicate ScheduleAccepted(a: CreateTaskArgs) {
    DateOrAbsent(a.scheduledDate) && DateOrAbsent(a.scheduledDatetimeUtc)
  }

  /** `scheduled_date` and `scheduled_datetime_utc`: the later block deletes
      the earlier one's attribute, so the UTC time wins when both are given. */
  method TaskScheduleBlocks(rt: Runtime, a: CreateTaskArgs) returns (r: Result<TaskSchedule, Error>)
    ensures r.Success? <==> ScheduleAccepted(a)
    ensures r.Success? ==> !(r.value.scheduledDate.Some? && r.value.scheduledDatetimeUtc.Some?)
    ensures r.Success? ==> r.value.scheduledDatetimeUtc == Stamp(rt.formatDateTime, a.scheduledDatetimeUtc)
    ensures r.Success? ==>
      r.value.scheduledDate == (if Truthy(a.scheduledDatetimeUtc) then None else Stamp(rt.formatDate, a.scheduledDate))
  {
    var date, utc := None, None;
    if Truthy(a.scheduledDate) {
      var v :- DateArg(rt.formatDate, a.scheduledDate, "scheduled_date");
      date, utc := Some(v), None;
    }
    if Truthy(a.scheduledDatetimeUtc) {
      var v :- DateArg(rt.formatDateTime, a.scheduledDatetimeUtc, "scheduled_datetime_utc");
      date, utc := None, Some(v);
    }
    return Success(TaskSchedule(date, utc));
  }

  // -------------------------------------------- form_id ... fields

  datatype TaskForm = TaskForm(formId: Option<Value>, attachments: Option<Value>, responsible: Option<Value>, fields: Option<Value>)

  predicate FormAccepted(a: CreateTaskArgs) {
    && (Truthy(a.formId) ==> IsInt(a.formId))
    && (Truthy(a.attachments) ==> a.attachments.List?)
    && (Truthy(a.fields) ==> FieldItemsAccepted(a.fields))
  }

  /** `form_id`, `attachments`, `responsible` (coerced to a Person) and
      `fields`. */
  method TaskFormBlocks(a: CreateTaskArgs) returns (r: Result<TaskForm, Error>)
    ensures r.Success? <==> FormAccepted(a)
    ensures r.Success? ==> r.value.formId == IfGiven(a.formId, a.formId)
    ensures r.Success? ==> r.value.attachments == IfGiven(a.attachments, a.attachments)
    ensures r.Success? ==> r.value.responsible == IfGiven(a.responsible, CoercePerson(a.responsible))
    ensures r.Success? ==> r.value.fields == Stored(a.fields, FieldListArg(a.fields, "field in fields"))
  {
    var formId, attachments, responsible, fields := None, None, None, None;
    if Truthy(a.formId) {
      if !IsInt(a.formId) {
        return Failure(TypeError(FormIdMessage));
      }
      formId := Some(a.formId);
    }
    if Truthy(a.attachments) {
      if !a.attachments.List? {
        return Failure(TypeError(AttachmentsMessage));
      }
      attachments := Some(a.attachments);
    }
    if Truthy(a.responsible) {
      responsible := Some(CoercePerson(a.responsible));
    }
    if Truthy(a.fields) {
      var v :- FieldListArg(a.fields, "field in fields");
      fields := Some(v);
    }
    return Success(TaskForm(formId, attachments, responsible, fields));
  }

  // -------------------------------------------- approvals ... fill_defaults

  datatype TaskPeople = TaskPeople(
    approvals: Option<Value>, subscribers: Option<Value>, participants: Option<Value>,
    listIds: Option<Value>, fillDefaults: Option<Value>)

  predicate PeopleAccepted(a: CreateTaskArgs) {
    && (Truthy(a.approvals) ==> IsListOfLists(a.approvals))
    && (Truthy(a.subscribers) ==> a.subscribers.List?)
    && (Truthy(a.participants) ==> IsParticipantList(a.participants))
    && IntListOrAbsent(a.listIds)
    && (Truthy(a.fillDefaults) ==> a.fillDefaults.Bool?)
  }

  /** `approvals`, `subscribers`, `participants`, `list_ids`, `fill_defaults`. */
  method TaskPeopleBlocks(a: CreateTaskArgs) returns (r: Result<TaskPeople, Error>)
    ensures r.Success? <==> PeopleAccepted(a)
    ensures r.Success? ==> r.value.approvals == Stored(a.approvals, ApprovalsArg(a.approvals, "approvals"))
    ensures r.Success? ==> r.value.subscribers == Stored(a.subscribers, PersonListArg(a.subscribers, "subscribers"))
    ensures r.Success? ==> r.value.participants == Stored(a.participants, ParticipantListArg(a.participants, "participants"))
    ensures r.Success? ==> r.value.listIds == IfGiven(a.listIds, a.listIds)
    ensures r.Success? ==> r.value.fillDefaults == IfGiven(a.fillDefaults, a.fillDefaults)
  {
    var approvals, subscribers, participants, listIds, fill := None, None, None, None, None;
    if Truthy(a.approvals) {
      var v :- ApprovalsArg(a.approvals, "approvals");
      approvals := Some(v);
    }
    if Truthy(a.subscribers) {
      var v :- PersonListArg(a.subscribers, "subscribers");
      subscribers := Some(v);
    }
    if Truthy(a.participants) {
      var v :- ParticipantListArg(a.participants, "participants");
      participants := Some(v);
    }
    if Truthy(a.listIds) {
      if !IsIntList(a.listIds) {
        return Failure(TypeError(ListIdsMessage));
      }
      listIds := Some(a.listIds);
    }
    if Truthy(a.fillDefaults) {
      if !a.fillDefaults.Bool? {
        return Failure(TypeError(FillDefaultsMessage));
      }
      fill := Some(a.fillDefaults);
    }
    return Success(TaskPeople(approvals, subscribers, participants, listIds, fill));
  }

  // ------------------------------------------------------------ the request

  /** The attributes of a constructed `CreateTaskRequest`. */
  datatype TaskAttrs = TaskAttrs(head: TaskHead, schedule: TaskSchedule, form: TaskForm, people: TaskPeople)

  /** The arguments `CreateTaskRequest(...)` accepts without raising. */
  predicate TaskAccepted(a: CreateTaskArgs) {
    HeadAccepted(a) && ScheduleAccepted(a) && FormAccepted(a) && PeopleAccepted(a)
  }

  /** `CreateTaskRequest(...)`. */
  method NewCreateTaskRequest(rt: Runtime, a: CreateTaskArgs) returns (r: Result<TaskAttrs, Error>)
    ensures r.Success? <==> TaskAccepted(a)
    // both due dates are kept: nothing makes them exclusive here
    ensures r.Success? ==> r.value.head.due == Stamp(rt.formatDateTime, a.due)
    ensures r.Success? ==> r.value.head.dueDate == Stamp(rt.formatDate, a.dueDate)
    // an int duration is kept whether or not `due` is given
    ensures r.Success? ==> r.value.head.duration == IfGiven(a.duration, a.duration)
    // at most one scheduling attribute, the UTC time winning
    ensures r.Success? ==> !(r.value.schedule.scheduledDate.Some? && r.value.schedule.scheduledDatetimeUtc.Some?)
    ensures r.Success? ==> (r.value.schedule.scheduledDatetimeUtc.Some? <==> Truthy(a.scheduledDatetimeUtc))
    ensures r.Success? ==>
      (r.value.schedule.scheduledDate.Some? <==> Truthy(a.scheduledDate) && !Truthy(a.scheduledDatetimeUtc))
    ensures r.Success? ==> r.value.form.responsible == IfGiven(a.responsible, CoercePerson(a.responsible))
  {
    var head :- TaskHeadBlocks(rt, a);
    var schedule :- TaskScheduleBlocks(rt, a);
    var form :- TaskFormBlocks(a);
    var people :- TaskPeopleBlocks(a);
    return Success(TaskAttrs(head, schedule, form, people));
  }
}

=== FILE: values.dfy ===
/** The Python values that cross the library's boundary: constructor
    arguments, decoded JSON payloads, attribute dictionaries, and the
    exceptions raised along the way.  Python semantics that the library relies
    on implicitly (truthiness, `isinstance(x, int)` accepting booleans, the
    `in` operator, iteration, `str()`) are written out here. */
module Values {
  import opened Wrappers
  import Decimal

  /** A Python object.  `Dict` keeps insertion order, as Python's dict does;
      `Object` is an instance of one of the library's entity classes
      (`Person`, `FormRegisterFilter`, `FormField`, `CatalogHeader`, ...)
      with its attribute dictionary. */
  datatype Value =
    | Null
    | Bool(b: bool)
    | Int(i: int)
    | Str(s: string)
    | List(items: seq<Value>)
    | Dict(members: seq<Member>)
    | DateTime(instant: int)
    | Object(cls: string, attrs: seq<Member>)

  datatype Member = Member(key: string, val: Value)

  /** The exceptions the modelled code raises or lets propagate. */
  datatype Error =
    | TypeError(message: string)
    | ValueError(message: string)
    | KeyError(key: string)
    | IndexError(message: string)
    | AttributeError(message: string)
    | UnboundLocalError(name: string)
    | JsonDecodeError
    | ConnectionError
    | Exception(message: string)

  /** Library and interpreter code whose text is not part of this model:
      `datetime.strftime` with the date and date-time formats of the
      `constants` module, `str()` of values other than None, booleans,
      integers and strings, and `entities.CatalogItem.fromliststr`
      (`None` when it raises TypeError). */
  datatype Runtime = Runtime(
    formatDate: int -> string,
    formatDateTime: int -> string,
    strOf: Value -> string,
    catalogItemFromList: Value -> Option<Value>)

  /** Python's truth value of an object. */
  predicate Truthy(v: Value) {
    match v
    case Null => false
    case Bool(b) => b
    case Int(i) => i != 0
    case Str(s) => s != ""
    case List(items) => items != []
    case Dict(members) => members != []
    case DateTime(_) => true
    case Object(_, _) => true
  }

  /** `isinstance(v, int)`: `bool` is a subclass of `int`. */
  predicate IsInt(v: Value) {
    v.Int? || v.Bool?
  }

  /** `isinstance(v, entities.<cls>)`. */
  predicate IsInstance(v: Value, cls: string) {
    v.Object? && v.cls == cls
  }

  predicate IsIntList(v: Value) {
    v.List? && forall i :: 0 <= i < |v.items| ==> IsInt(v.items[i])
  }

  /** The first member of `ms` whose key is `k`. */
  function Find(ms: seq<Member>, k: string): (r: Option<Value>)
    ensures r.None? <==> forall i :: 0 <= i < |ms| ==> ms[i].key != k
    ensures r.Some? ==> exists i :: 0 <= i < |ms| && ms[i] == Member(k, r.value)
  {
    if |ms| == 0 then None
    else if ms[0].key == k then Some(ms[0].val)
    else Find(ms[1..], k)
  }

  /** `k in d` for a dict `d`. */
  predicate HasKey(ms: seq<Member>, k: string) {
    Find(ms, k).Some?
  }

  /** `d.get(k)`: the value under `k`, None when the key is missing. */
  function Get(ms: seq<Member>, k: string): Value {
    Find(ms, k).GetOr(Null)
  }

  /** `v[k]` with a string key. */
  function Subscript(v: Value, k: string): (r: Result<Value, Error>)
    ensures r.Success? <==> v.Dict? && HasKey(v.members, k)
    ensures r.Success? ==> r.value == Get(v.members, k)
    ensures v.Dict? && !HasKey(v.members, k) ==> r == Failure(KeyError(k))
  {
    match v
    case Dict(ms) =>
      (match Find(ms, k)
       case Some(x) => Success(x)
       case None => Failure(KeyError(k)))
    case _ => Failure(TypeError("object is not subscriptable by a string"))
  }

  /** `obj.name` on an entity object. */
  function GetAttr(v: Value, name: string): (r: Result<Value, Error>)
    ensures r.Success? <==> v.Object? && HasKey(v.attrs, name)
  {
    if v.Object? && HasKey(v.attrs, name) then Success(Get(v.attrs, name))
    else Failure(AttributeError("object has no attribute '" + name + "'"))
  }

  /** The items a `for` loop visits: list elements, the one-character
      strings of a string, the keys of a dict. */
  function Iterate(v: Value): (r: Result<seq<Value>, Error>)
    ensures r.Success? <==> v.List? || v.Str? || v.Dict?
    ensures v.List? ==> r == Success(v.items)
    ensures v.Str? ==> r.Success? && |r.value| == |v.s|
    ensures v.Str? ==> forall i :: 0 <= i < |v.s| ==> r.value[i] == Str([v.s[i]])
    ensures v.Dict? ==> r.Success? && |r.value| == |v.members|
    ensures v.Dict? ==> forall i :: 0 <= i < |v.members| ==> r.value[i] == Str(v.members[i].key)
    ensures r.Success? && !v.List? ==> forall i :: 0 <= i < |r.value| ==> r.value[i].Str?
  {
    match v
    case List(items) => Success(items)
    case Str(s) => Success(seq(|s|, i requires 0 <= i < |s| => Str([s[i]])))
    case Dict(ms) => Success(seq(|ms|, i requires 0 <= i < |ms| => Str(ms[i].key)))
    case _ => Failure(TypeError("object is not iterable"))
  }

  /** `t` occurs in `s` at some position. */
  predicate IsSubstring(t: string, s: string) {
    t <= s || (|s| > 0 && IsSubstring(t, s[1..]))
  }

  /** `item in container` for a string `item`: key membership for a dict,
      element equality for a list, substring for a string. */
  function Contains(container: Value, item: string): (r: Result<bool, Error>)
    ensures r.Success? <==> container.List? || container.Str? || container.Dict?
    ensures container.Dict? ==> r == Success(HasKey(container.members, item))
    ensures container.List? ==> r == Success(Str(item) in container.items)
  {
    match container
    case Dict(ms) => Success(HasKey(ms, item))
    case List(items) => Success(Str(item) in items)
    case Str(s) => Success(IsSubstring(item, s))
    case _ => Failure(TypeError("argument of type is not iterable"))
  }

  /** `str(v)`, as used by `'{}'.format(v)`. */
  function Display(rt: Runtime, v: Value): (r: string)
    ensures v.Null? ==> r == "None"
    ensures v.Bool? ==> r == (if v.b then "True" else "False")
    ensures v.Int? ==> r == Decimal.IntToString(v.i)
    ensures v.Str? ==> r == v.s
    ensures !(v.Null? || v.Bool? || v.Int? || v.Str?) ==> r == rt.strOf(v)
  {
    match v
    case Null => "None"
    case Bool(b) => if b then "True" else "False"
    case Int(i) => Decimal.IntToString(i)
    case Str(s) => s
    case _ => rt.strOf(v)
  }

  /** An int is written in decimal, which `int()` reads back as the same
      int. */
  lemma DisplayIntReadsBack(rt: Runtime, i: int)
    ensures Decimal.ParseInt(Display(rt, Int(i))) == Some(i)
  {
    Decimal.ParseIntOfIntToString(i);
  }

  /** A container is truthy exactly when a `for` loop over it visits
      something. */
  lemma TruthyIsNonEmpty(v: Value)
    requires Iterate(v).Success?
    ensures Truthy(v) <==> |Iterate(v).value| > 0
  {
  }
}

=== FILE: wrappers.dfy ===
/** Option and Result, the failure-compatible datatypes the rest of the model
    uses in place of Python's None and raised exceptions. */
module Wrappers {

  datatype Option<+T> = None | Some(value: T) {

    /** The wrapped value, or `default` when there is none. */
    function GetOr(default: T): T {
      match this
      case Some(v) => v
      case None => default
    }
  }

  /** Either a value or an error; usable with `:-`. */
  datatype Result<+T, +E> = Success(value: T) | Failure(error: E) {

    predicate IsFailure() {
      Failure?
    }

    function PropagateFailure<U>(): Result<U, E>
      requires Failure?
    {
      Failure(error)
    }

    function Extract(): T
      requires Success?
    {
      value
    }
  }
}
